=== FILE: README.md ===
# City simulation core: development life cycle and lane graph

A Dafny model of two parts of a browser city-builder:

- `DevelopmentAttribute` (src/city/building/attributes/development.ts). This is the per-zone state machine:
  undeveloped → under construction → developed ⇄ abandoned. It has a construction counter, a level that can rise
  up to `maxLevel`, and an abandonment counter. The counter is reset on every tick where the zone's tile has road
  access and incremented on every tick where it has none.
- `VehicleGraph` (src/city/vehicle/vehicleGraph.ts). This is the lane graph that vehicles drive on. It covers:
  - the `size × size` grid of tile slots;
  - `getTile` and `updateTile`, which place a road tile, wire it to its four neighbours, or remove a tile and cut the
    edges that lead into it;
  - the spawner: `getValidPopulation`, `calculateMaxVehicles`, `spawnVehicle` and `getStartingTile`.

Files:

- `wrappers.dfy`: `Option`.
- `development.dfy`, module `Development`: the attribute, one `simulate` tick (`Simulate`), runs of many ticks
  (`Run`), and their properties.
- `vehicle_graph.dfy`, module `VehicleGraph`:
  - the graph as an immutable value, with `Create`, `GetTile` and `UpdateTile`;
  - the graph invariant `Inv`. Every slot holds a tile placed at that slot. Every edge leads from a node of a tile in
    the grid to a node of a tile in the grid, either inside one tile or across facing sides of neighbours. Every pair
    of facing out/in nodes of neighbouring tiles is linked;
  - `UpdateTileDisconnecting`, the corrected `updateTile` (see Findings).
- `graph_scenarios.dfy`, module `GraphScenarios`: two-tile scenarios. Two adjacent roads link both ways, and removing
  one cuts the link. Replacing an occupied slot in place leaves a dangling edge.
- `spawner.dfy`, module `Spawner`: vehicle capacity, starting-tile selection and one spawn cycle (`Spawn`), and many
  cycles (`Spawns`).

Modelling choices:

- Every `Math.random()` is a `real` argument in [0, 1). Each `simulate` call makes at most one draw. Each
  `spawnVehicle` call makes up to four: the gate, the tile, the node and the edge.
- `CONFIG.ZONE` is a `Config` argument. `city.getTile` is a function from coordinates to an optional tile carrying an
  optional `roadAccess` value.
- A node's identity is object identity in the program. The model names a node by:
  - the instance number of its tile, taken from a counter that counts tile creations;
  - the tile's coordinates;
  - its port, which is a side and a direction.
- `VehicleGraphTile` and `VehicleGraphNode` internals are not part of this model. A tile is its set of ports plus
  the wiring `VehicleGraphTile.create` gives it, passed in as an optional `Template` (null is `None`).
  `connect(n)` appends `n` unless it is null. `disconnectAll()` empties `next`.
  The wiring is assumed to lead only from ports of the new tile to ports of the same tile (`ValidTemplate`). Every
  member about `updateTile` requires this of the created tile.
- A road is buildable when it has a rotation and a non-empty style. This assumes `road.rotation` is an object, as
  line 92 reads its `y`, so any present rotation passes the truthiness test at line 91. The road type is not part
  of this model (see "Left out").
- `getRandomNode` and `getRandomNextNode` are assumed to pick index `floor(length * draw)`, like `getStartingTile`.
  They pick from the tile's nodes (in a fixed port order) and from the node's `next`, and return nothing when the
  list is empty.
- The live vehicles are a sequence, and a spawn appends one. `parseInt` of the population is an `Option<int>`, where
  `None` stands for `NaN`.

Two details of the code:

- The capacity is `Math.floor((population / 4) * 2)`, which is `floor(population / 2)`. It is not
  `floor(population / 4) * 2`: for a population of 6 the code allows 3 vehicles, not 2 (`Spawner.MaxVehiclesHalf`).
- A developed zone can be abandoned, on a successful abandonment draw, only once its counter exceeds the threshold.
  Because the counter is reset on any tick with road access, that takes `threshold + 1` consecutive ticks without
  road access (`Development.RunWithoutAccess`, `Development.ForcedAbandonment`).

## Model

| member | source | states |
|---|---|---|
| Development.Create | src/city/building/attributes/development.ts:12-29 | A new attribute belongs to the given zone and is undeveloped, at level 1 with maximum level 3 and both counters at zero. It satisfies the attribute's bounds (1 ≤ level ≤ maxLevel). |
| Development.SetState | src/city/building/attributes/development.ts:44-47 | Setting the state marks the zone's mesh out of date and changes nothing else. |
| Development.SetLevel | src/city/building/attributes/development.ts:35-38 | Setting the level marks the zone's mesh out of date and changes nothing else. |
| Development.CheckDevelopmentCriteria | src/city/building/attributes/development.ts:93-101 | The criteria hold exactly when the city has a tile at the zone whose road access is present and true. A missing tile, or a missing or false access value, means they fail. |
| Development.CheckAbandonmentCriteria | src/city/building/attributes/development.ts:103-111 | The abandonment counter is reset to 0 when the zone's tile has road access and otherwise grows by one. State, level, zone, maximum level and construction counter are kept. |
| Development.CriteriaAgree | src/city/building/attributes/development.ts:93-111 | The abandonment counter is reset to zero exactly when the development criteria hold. The two checks read road access the same way. |
| Development.SimulateAbandonmentCounter | src/city/building/attributes/development.ts:49-50 | In every state, a tick resets the abandonment counter on road access and otherwise adds one. |
| Development.Simulate | src/city/building/attributes/development.ts:49-91 | One tick moves only along the life-cycle transitions and keeps the attribute's bounds. The zone's coordinates and the maximum level never change. The level changes only in the developed state. The mesh becomes out of date exactly when the state or the level changed, or it already was. |
| Development.UndevelopedStep | src/city/building/attributes/development.ts:53-61 | An undeveloped zone starts construction, with its counter at 0, exactly when it has road access and the draw is below the redevelopment chance. Otherwise it stays as it was. |
| Development.ConstructionStep | src/city/building/attributes/development.ts:62-68 | Construction advances the counter by one. When the counter reaches the construction time, the zone becomes developed at level 1 with the counter reset. |
| Development.DevelopedStep | src/city/building/attributes/development.ts:69-82 | Past the abandonment threshold, a developed zone is abandoned exactly when the draw is below the abandonment chance, and keeps its level. Otherwise it stays developed and gains one level exactly when it is below the maximum and the draw is below the level-up chance. |
| Development.AbandonedStep | src/city/building/attributes/development.ts:83-89 | An abandoned zone is redeveloped at its old level exactly when it has road access this tick and the draw is below the redevelopment chance. Otherwise it stays abandoned. |
| Development.ForcedAbandonment | src/city/building/attributes/development.ts:69-73 | With an abandonment chance of 1, a developed zone without access whose counter is one past the threshold is abandoned. |
| Development.AccessPreventsAbandonment | src/city/building/attributes/development.ts:69-82 | A developed zone with road access stays developed, whatever the draw. |
| Development.RunValid | src/city/building/attributes/development.ts:49-91 | Any number of ticks keeps the level within 1..maxLevel and the counters non-negative. |
| Development.RunWithoutAccess | src/city/building/attributes/development.ts:103-111 | After n ticks without road access, the abandonment counter has grown by exactly n. |
| Development.RunWithAccess | src/city/building/attributes/development.ts:103-111 | After one or more ticks with road access, the abandonment counter is 0. |
| Development.RunNeverUndeveloped | src/city/building/attributes/development.ts:52-90 | Once construction has started, a zone never returns to undeveloped. |
| Development.RunStaysBuilt | src/city/building/attributes/development.ts:69-89 | A developed or abandoned zone stays developed or abandoned forever. |
| Development.ConstructionDuration | src/city/building/attributes/development.ts:62-68 | A building stays under construction, with its counter advancing by one per tick, until the counter reaches the construction time. |
| Development.DevelopmentWithSureDraws | src/city/building/attributes/development.ts:53-68 | A new zone with access on its first tick and a successful draw is developed at level 1 after construction time + 1 ticks. |
| VehicleGraph.Create | src/city/vehicle/vehicleGraph.ts:33-40 | The constructor builds a size × size grid of empty slots, and that graph satisfies the invariant. |
| VehicleGraph.GetTile | src/city/vehicle/vehicleGraph.ts:139-145 | Outside the grid the answer is null. Inside, it is the slot's content. |
| VehicleGraph.Remove | src/city/vehicle/vehicleGraph.ts:80-88 | Removal empties the slot and leaves every other slot as it was. |
| VehicleGraph.RemoveNext | src/city/vehicle/vehicleGraph.ts:80-86 | After removal, the removed tile's nodes and the neighbours' out-nodes facing it have no edges. Every other node keeps its edges. |
| VehicleGraph.RemoveLive | src/city/vehicle/vehicleGraph.ts:80-86 | After removal, the nodes in the grid are exactly the old ones minus those of the removed slot. |
| VehicleGraph.RemoveSound | src/city/vehicle/vehicleGraph.ts:80-86 | After removal, every edge of a node in the grid still leads to a node in the grid, on the same tile or across facing sides. |
| VehicleGraph.RemovePreservesInv | src/city/vehicle/vehicleGraph.ts:80-88 | Removing an occupied slot keeps the graph invariant, so no node in the grid has an edge to a removed node. |
| VehicleGraph.Place | src/city/vehicle/vehicleGraph.ts:91-130 | Placing puts the newly created tile, or null, in the slot, stamped with a fresh instance number, and leaves every other slot as it was. |
| VehicleGraph.PlaceNext | src/city/vehicle/vehicleGraph.ts:91-127 | After placing, a node's edges are its old edges (or the new tile's internal wiring), followed by the links to the facing in-node of each side in left, right, top, bottom order. |
| VehicleGraph.PlaceConnectsBothWays | src/city/vehicle/vehicleGraph.ts:95-126 | On a buildable road, the new tile's out-node on each side leads to the neighbour's facing in-node. The neighbour's facing out-node leads back to the new tile's in-node. |
| VehicleGraph.PlaceLinksNeighbour | src/city/vehicle/vehicleGraph.ts:95-126 | Both directions of the link between the new tile and its neighbour across any side exist whenever the nodes exist. |
| VehicleGraph.PlaceLive | src/city/vehicle/vehicleGraph.ts:127 | Placing into an empty slot adds exactly the new tile's nodes to the nodes in the grid. |
| VehicleGraph.PlaceSound | src/city/vehicle/vehicleGraph.ts:91-127 | Placing into an empty slot adds only edges between nodes in the grid, inside one tile or across facing sides. |
| VehicleGraph.PlaceLinked | src/city/vehicle/vehicleGraph.ts:95-126 | After placing into an empty slot, every facing pair of out/in nodes in the grid is linked. |
| VehicleGraph.PlaceKeepsEdges | src/city/vehicle/vehicleGraph.ts:91-127 | Placing never removes an edge from a node of another slot. |
| VehicleGraph.PlaceRetires | src/city/vehicle/vehicleGraph.ts:127 | Overwriting a slot takes the old tile's nodes out of the grid and keeps every other node. |
| VehicleGraph.PlacePreservesInv | src/city/vehicle/vehicleGraph.ts:91-130 | Placing a road (or null) into an empty slot keeps the graph invariant. |
| VehicleGraph.Symmetric | src/city/vehicle/vehicleGraph.ts:95-126 | In a graph that keeps the invariant, a cross-tile edge joins facing sides, and the reverse link exists too. |
| VehicleGraph.UpdateTile | src/city/vehicle/vehicleGraph.ts:72-137 | The slot ends up holding the newly created tile when the road is buildable, and null otherwise. All other slots are unchanged. |
| VehicleGraph.UpdateTilePlaces | src/city/vehicle/vehicleGraph.ts:80-92 | A buildable road always takes the placing branch, whether or not the slot is occupied. |
| VehicleGraph.UpdateTileRemoves | src/city/vehicle/vehicleGraph.ts:80-89 | A null road on an occupied slot takes the removal branch. |
| VehicleGraph.RemoveEmptyIsNoOp | src/city/vehicle/vehicleGraph.ts:131-133 | A null road on an empty slot leaves the graph unchanged. |
| VehicleGraph.UpdateTileAgrees | src/city/vehicle/vehicleGraph.ts:72-137 | The corrected update behaves exactly like the program whenever the slot is empty or the road is null. |
| VehicleGraph.UpdateTileDisconnecting | src/city/vehicle/vehicleGraph.ts:72-137 | The corrected update fills or clears the slot exactly as the program does and leaves other slots alone. |
| VehicleGraph.UpdateTileDisconnectingPreservesInv | src/city/vehicle/vehicleGraph.ts:72-137 | The corrected update keeps the graph invariant for every road and every slot. |
| GraphScenarios.PlaceOnEmpty | src/city/vehicle/vehicleGraph.ts:91-127 | A buildable road on an empty slot keeps the invariant and stores a tile stamped with the next instance number. |
| GraphScenarios.TwoRoads | src/city/vehicle/vehicleGraph.ts:91-127 | Two roads placed side by side keep the invariant and receive consecutive instance numbers. |
| GraphScenarios.StraightRoadsLinked | src/city/vehicle/vehicleGraph.ts:91-127 | Two straight east-west roads built on neighbouring empty slots are linked both ways across their shared side, with consecutive instance numbers. |
| GraphScenarios.TwoRoadsLinked | src/city/vehicle/vehicleGraph.ts:95-110 | Two side-by-side roads are linked both ways across their shared side. |
| GraphScenarios.SecondRoadRemoved | src/city/vehicle/vehicleGraph.ts:80-88 | Removing the right-hand road keeps the invariant and clears the left-hand road's out-node facing it. |
| GraphScenarios.TwoRoadsLinkedThenCut | src/city/vehicle/vehicleGraph.ts:80-127 | Two side-by-side roads are linked, and removing one of them cuts the link. |
| GraphScenarios.ReplacedByPlace | src/city/vehicle/vehicleGraph.ts:91-127 | Overwriting a slot leaves the neighbour's edge into the old tile in place, while the old tile's node leaves the grid. |
| GraphScenarios.ReplacedByRoad | src/city/vehicle/vehicleGraph.ts:91-127 | Replacing an occupied slot with a road leaves the neighbour's edge into the replaced tile dangling. |
| GraphScenarios.ReplacedByUnbuildable | src/city/vehicle/vehicleGraph.ts:131-133 | Clearing an occupied slot with an unbuildable road leaves the neighbour's edge into the removed tile dangling. |
| GraphScenarios.Dangling | src/city/vehicle/vehicleGraph.ts:80-86 | An edge from a node in the grid to a node outside it breaks edge soundness. |
| GraphScenarios.ReplacementLeavesDanglingEdge | src/city/vehicle/vehicleGraph.ts:91-133 | Both non-removal branches break the invariant when the slot is occupied. The corrected update keeps it. |
| Spawner.MaxVehiclesHalf | src/city/vehicle/vehicleGraph.ts:52-54 | The capacity is half the population, rounded down, and lies between 0 and the population. |
| Spawner.Index | src/city/vehicle/vehicleGraph.ts:181-182 | `floor(length × draw)` is a valid index for a draw in [0, 1). |
| Spawner.IndexReaches | src/city/vehicle/vehicleGraph.ts:181-182 | Every index of a non-empty list is picked by some draw. |
| Spawner.IndexInterval | src/city/vehicle/vehicleGraph.ts:181 | Index i of a list of length n is picked exactly by the draws in [i/n, (i+1)/n). Every index has an interval of the same width, so a uniform draw picks each index with the same chance. |
| Spawner.PickInterval | src/city/vehicle/vehicleGraph.ts:181-182 | A draw in [i/n, (i+1)/n) picks the list's element i, not just some element. |
| Spawner.Pick | src/city/vehicle/vehicleGraph.ts:178-183 | A pick is null exactly on an empty list. Otherwise it is an element of the list. |
| Spawner.AllTilesCollected | src/city/vehicle/vehicleGraph.ts:170-177 | The collected list holds exactly the tiles in the grid's slots. |
| Spawner.CollectTiles | src/city/vehicle/vehicleGraph.ts:170-177 | The nested loops collect the occupied slots in column-major order. |
| Spawner.StartingTileOccupied | src/city/vehicle/vehicleGraph.ts:169-184 | The starting tile is null exactly when every slot is empty. Otherwise it is a tile held by some slot. |
| Spawner.GetStartingTile | src/city/vehicle/vehicleGraph.ts:169-184 | The loop-based selection returns null exactly when every slot is empty. Otherwise it returns a tile held by some slot. |
| Spawner.TileNodes | src/city/vehicle/vehicleGraph.ts:162 | A tile's candidate origins are exactly the nodes of the ports it has. |
| Spawner.Spawn | src/city/vehicle/vehicleGraph.ts:147-167 | A spawn cycle adds at most one vehicle and keeps the existing ones. It adds one only when the population is positive, the count is below capacity and the gate draw is below capacity/population. A count within capacity stays within capacity. |
| Spawner.SpawnedVehicle | src/city/vehicle/vehicleGraph.ts:159-166 | A spawned vehicle starts at a node of a tile held by some slot and heads along one of that node's out-edges. |
| Spawner.SpawnedOnLiveNodes | src/city/vehicle/vehicleGraph.ts:159-166 | In a graph that keeps the invariant, both ends of a spawned vehicle are nodes of tiles in the grid. |
| Spawner.SpawnAbortsWithoutPicks | src/city/vehicle/vehicleGraph.ts:162-164 | When the picked tile has no node, or the picked origin has no out-edge, the cycle spawns nothing and does not try another node. |
| Spawner.NoSpawn | src/city/vehicle/vehicleGraph.ts:147-163 | Nothing spawns with no population, at or above capacity, or on an empty grid. |
| Spawner.SpawnWhenOpen | src/city/vehicle/vehicleGraph.ts:147-167 | When the gate is open, the grid holds a tile, every tile in the grid has a node and every node of every tile in the grid has an out-edge, exactly one vehicle spawns. |
| Spawner.SpawnWhenPicksSucceed | src/city/vehicle/vehicleGraph.ts:156-166 | When the gate is open and the picked origin, a node of the picked starting tile, has an out-edge, exactly one vehicle spawns. Dead ends elsewhere in the network do not matter. |
| Spawner.SpawnsBounded | src/city/vehicle/vehicleGraph.ts:147-167 | Over any number of cycles, vehicles only accumulate, by at most one per cycle. A count within capacity never exceeds it, and a count above capacity never changes. |

## Left out

- `DevelopmentAttribute.toHTML` is presentation only.
- `VehicleGraph.updateVehicles` and vehicle movement are left out because they depend on `Vehicle`, which is not
  part of this model.
- `spawnVehicleInstance` (lines 56-62) is modelled only as appending the new vehicle's origin and destination. The
  asset manager and the scene group are rendering.
- `this.helper.update(this)`, `this.add(tile)` and the `THREE.Group` that holds the vehicles are presentation. The
  vehicles are a sequence.
- The `setInterval` timer that drives `spawnVehicle` is left out. `Spawner.Spawns` applies the cycle once per draw
  instead.
- Spawner.Pick: the probability measure itself is outside the model. `Spawner.IndexInterval` and
  `Spawner.PickInterval` state what makes a uniform draw give a uniform pick: each index is picked by exactly the
  draws in one interval of width 1/n.
- Spawner.Spawn: the node picks of `getRandomNode` and `getRandomNextNode` are assumed (see above), because
  `VehicleGraphTile` and `VehicleGraphNode` are not part of this model.
- VehicleGraph.UpdateTile: coordinates must lie in the grid, so the program's behaviour outside it is not modelled.
  For an out-of-range `x` the program throws at the slot assignment (line 127 or 132). With a buildable road, the
  in-grid neighbour has by then already been linked to the new tile (lines 95-126). For `x = -1` that is the tile at
  (0, y), which keeps an edge into a tile that is never stored. An out-of-range `y` stores the tile where `getTile`
  never finds it, while still linking it to its in-grid neighbours.
- VehicleGraph.Buildable: the model takes `road.rotation` to be an object, which is always truthy, so a road at 0°
  is buildable. The road type is not part of this model. Line 92 reads `road.rotation.y`, which supports the object
  reading. The road mesh code (src/assetManager/index.ts:175) instead uses `road.rotation` as an angle in degrees
  behind a truthiness guard. If it is that number, a 0° road fails the test at line 91, and `updateTile` leaves the
  slot empty (line 132).
- `getValidPopulation` is `Spawner.ValidPopulation`, a helper without a contract of its own. `Spawner.Spawn` states
  its effect.
- Floating-point rounding is not modelled. Draws, chances and the capacity use exact reals. The capacity agrees
  with the program for every population that a double holds exactly. The gate compares the draw with the exact
  ratio capacity / population, where the program compares it with the rounded quotient.
- The tile geometry, node positions, rotation angles and road styles are not modelled beyond buildability.

## Findings

| source | as written | input that shows it | evidently intended | confidence | as-written member | corrected member |
|---|---|---|---|---|---|---|
| src/city/vehicle/vehicleGraph.ts:91-133 | `updateTile` disconnects the old tile only when the new road is null. A buildable road, or an unbuildable one, on an occupied slot overwrites the tile. The neighbours' out-nodes keep edges into nodes of the discarded tile, so a vehicle can be routed onto a tile that is no longer in the grid. | Roads at (x, y) and (x + 1, y) linked across their shared side, then `updateTile(x + 1, y, road)` with any road | Disconnect the existing tile and the neighbours' facing out-nodes before placing or clearing, as the removal branch does | medium; not executed | GraphScenarios.ReplacementLeavesDanglingEdge (over VehicleGraph.UpdateTile) | VehicleGraph.UpdateTileDisconnecting, with VehicleGraph.UpdateTileDisconnectingPreservesInv |

=== FILE: development.dfy ===
/**
 * The development life cycle of a zoned building (`DevelopmentAttribute` in
 * src/city/building/attributes/development.ts).
 *
 * Modelling choices:
 * - every `Math.random() < CONFIG.ZONE.X_CHANCE` test compares a `draw` in [0, 1)
 *   with a chance taken from `Config`; one `simulate` call makes at most one draw,
 *   so each tick carries exactly one draw (unused on ticks that make none);
 * - `city.getTile(x, y)` is a function argument `City`; the tile's
 *   `roadAccess?.value` is an `Option<bool>`;
 * - the zone that owns the attribute is kept only through its coordinates and its
 *   `isMeshOutOfDate` flag.
 */
module Development {
  import opened Wrappers

  datatype State = Undeveloped | UnderConstruction | Developed | Abandoned

  /** The `CONFIG.ZONE` constants, injected. */
  datatype Config = Config(
    redevelopChance: real,
    constructionTime: int,
    abandonmentThreshold: int,
    abandonmentChance: real,
    levelUpChance: real)

  /** The part of a city tile the attribute reads: `roadAccess?.value`. */
  datatype CityTile = CityTile(roadAccess: Option<bool>)

  /** `city.getTile(x, y)`: the tile at a coordinate, if any. */
  type City = (int, int) -> Option<CityTile>

  datatype Zone = Zone(x: int, y: int, isMeshOutOfDate: bool)

  datatype Attribute = Attribute(
    zone: Zone,
    state: State,
    level: int,
    maxLevel: int,
    abandonmentCounter: int,
    constructionCounter: int)

  /** One simulation tick's inputs: the city as it is on that tick, and the random draw. */
  datatype Tick = Tick(city: City, draw: real)

  /** A freshly constructed attribute. */
  function Create(zone: Zone): (a: Attribute)
    ensures a.zone == zone && a.state == Undeveloped && a.level == 1 && a.maxLevel == 3
    ensures a.abandonmentCounter == 0 && a.constructionCounter == 0
    ensures Valid(a)
  {
    Attribute(zone, Undeveloped, 1, 3, 0, 0)
  }

  /** The bounds the attribute keeps: the level lies in 1..maxLevel and the counters are natural numbers. */
  predicate Valid(a: Attribute)
  {
    && 1 <= a.level <= a.maxLevel
    && a.abandonmentCounter >= 0
    && a.constructionCounter >= 0
  }

  /** The `state` setter: it also marks the zone's mesh out of date. */
  function SetState(a: Attribute, s: State): (r: Attribute)
    ensures r.state == s && r.zone.isMeshOutOfDate
    ensures r.level == a.level && r.zone.x == a.zone.x && r.zone.y == a.zone.y
    ensures r.abandonmentCounter == a.abandonmentCounter && r.constructionCounter == a.constructionCounter
    ensures r.maxLevel == a.maxLevel
  {
    a.(state := s, zone := a.zone.(isMeshOutOfDate := true))
  }

  /** The `level` setter: it also marks the zone's mesh out of date. */
  function SetLevel(a: Attribute, level: int): (r: Attribute)
    ensures r.level == level && r.zone.isMeshOutOfDate
    ensures r.state == a.state && r.zone.x == a.zone.x && r.zone.y == a.zone.y
    ensures r.abandonmentCounter == a.abandonmentCounter && r.constructionCounter == a.constructionCounter
    ensures r.maxLevel == a.maxLevel
  {
    a.(level := level, zone := a.zone.(isMeshOutOfDate := true))
  }

  /** `checkDevelopmentCriteria`: the zone's tile exists and its road access value is true. */
  function CheckDevelopmentCriteria(a: Attribute, city: City): (ok: bool)
    ensures ok <==> city(a.zone.x, a.zone.y) == Some(CityTile(Some(true)))
  {
    match city(a.zone.x, a.zone.y)
    case Some(tile) => tile.roadAccess == Some(true)
    case None => false
  }

  /** `checkAbandonmentCriteria`: count one more tick without road access, or reset the count. */
  function CheckAbandonmentCriteria(a: Attribute, city: City): (r: Attribute)
    ensures r.state == a.state && r.level == a.level && r.zone == a.zone
    ensures r.maxLevel == a.maxLevel && r.constructionCounter == a.constructionCounter
    ensures CheckDevelopmentCriteria(a, city) ==> r.abandonmentCounter == 0
    ensures !CheckDevelopmentCriteria(a, city) ==> r.abandonmentCounter == a.abandonmentCounter + 1
  {
    if CheckDevelopmentCriteria(a, city) then a.(abandonmentCounter := 0)
    else a.(abandonmentCounter := a.abandonmentCounter + 1)
  }

  /** The transitions the life cycle allows in one tick (staying put included). */
  predicate Successor(s: State, s': State)
  {
    || s' == s
    || (s == Undeveloped && s' == UnderConstruction)
    || (s == UnderConstruction && s' == Developed)
    || (s == Developed && s' == Abandoned)
    || (s == Abandoned && s' == Developed)
  }

  /** `simulate`: one tick of the life cycle. */
  function Simulate(a: Attribute, cfg: Config, city: City, draw: real): (r: Attribute)
    ensures Successor(a.state, r.state)
    ensures Valid(a) ==> Valid(r)
    ensures r.zone.x == a.zone.x && r.zone.y == a.zone.y && r.maxLevel == a.maxLevel
    ensures r.state != Developed ==> r.level == a.level
    ensures r.zone.isMeshOutOfDate <==> a.zone.isMeshOutOfDate || r.state != a.state || r.level != a.level
  {
    var b := CheckAbandonmentCriteria(a, city);
    match b.state
    case Undeveloped =>
      if CheckDevelopmentCriteria(b, city) && draw < cfg.redevelopChance then
        SetState(b, UnderConstruction).(constructionCounter := 0)
      else b
    case UnderConstruction =>
      var counter := b.constructionCounter + 1;
      if counter == cfg.constructionTime then
        SetLevel(SetState(b, Developed), 1).(constructionCounter := 0)
      else b.(constructionCounter := counter)
    case Developed =>
      if b.abandonmentCounter > cfg.abandonmentThreshold then
        if draw < cfg.abandonmentChance then SetState(b, Abandoned) else b
      else if b.level < b.maxLevel && draw < cfg.levelUpChance then
        SetLevel(b, b.level + 1)
      else b
    case Abandoned =>
      if b.abandonmentCounter == 0 && draw < cfg.redevelopChance then SetState(b, Developed)
      else b
  }

  /** Consecutive `simulate` calls, one per tick. */
  function Run(a: Attribute, cfg: Config, ticks: seq<Tick>): Attribute
    decreases |ticks|
  {
    if |ticks| == 0 then a
    else Run(Simulate(a, cfg, ticks[0].city, ticks[0].draw), cfg, ticks[1..])
  }

  // ---------------------------------------------------------------------------
  // One tick
  // ---------------------------------------------------------------------------

  /** Whatever the state, a tick resets the abandonment counter when the tile has road access and adds one otherwise. */
  lemma SimulateAbandonmentCounter(a: Attribute, cfg: Config, city: City, draw: real)
    ensures CheckDevelopmentCriteria(a, city) ==> Simulate(a, cfg, city, draw).abandonmentCounter == 0
    ensures !CheckDevelopmentCriteria(a, city) ==>
      Simulate(a, cfg, city, draw).abandonmentCounter == a.abandonmentCounter + 1
  {
  }

  /** The two criteria agree: the abandonment counter is reset exactly on the ticks the development criteria hold. */
  lemma CriteriaAgree(a: Attribute, city: City)
    requires a.abandonmentCounter >= 0
    ensures CheckAbandonmentCriteria(a, city).abandonmentCounter == 0 <==> CheckDevelopmentCriteria(a, city)
  {
  }

  /** An undeveloped zone starts construction exactly when it has road access and the redevelopment draw succeeds. */
  lemma UndevelopedStep(a: Attribute, cfg: Config, city: City, draw: real)
    requires a.state == Undeveloped
    ensures var r := Simulate(a, cfg, city, draw);
      && (r.state == UnderConstruction <==> CheckDevelopmentCriteria(a, city) && draw < cfg.redevelopChance)
      && (r.state == UnderConstruction ==> r.constructionCounter == 0)
      && (r.state == Undeveloped ==> r.constructionCounter == a.constructionCounter && r.zone == a.zone)
      && r.level == a.level
  {
  }

  /** Under construction the counter advances by one; reaching the construction time completes the building at level 1. */
  lemma ConstructionStep(a: Attribute, cfg: Config, city: City, draw: real)
    requires a.state == UnderConstruction
    ensures var r := Simulate(a, cfg, city, draw);
      if a.constructionCounter + 1 == cfg.constructionTime then
        r.state == Developed && r.level == 1 && r.constructionCounter == 0
      else
        r.state == UnderConstruction && r.level == a.level && r.constructionCounter == a.constructionCounter + 1
  {
  }

  /**
   * A developed zone past the abandonment threshold can only become abandoned, on a successful draw, and keeps its
   * level; otherwise it stays developed and gains at most one level, and only below the maximum.
   */
  lemma DevelopedStep(a: Attribute, cfg: Config, city: City, draw: real)
    requires a.state == Developed
    ensures var r := Simulate(a, cfg, city, draw);
      var counter := CheckAbandonmentCriteria(a, city).abandonmentCounter;
      if counter > cfg.abandonmentThreshold then
        && r.level == a.level
        && (r.state == Abandoned <==> draw < cfg.abandonmentChance)
        && (r.state == Developed <==> draw >= cfg.abandonmentChance)
      else
        && r.state == Developed
        && (r.level == a.level + 1 <==> a.level < a.maxLevel && draw < cfg.levelUpChance)
        && (r.level != a.level ==> r.level == a.level + 1 <= a.maxLevel)
  {
  }

  /** An abandoned zone is redeveloped, at its old level, exactly on a tick with road access and a successful draw. */
  lemma AbandonedStep(a: Attribute, cfg: Config, city: City, draw: real)
    requires a.state == Abandoned && a.abandonmentCounter >= 0
    ensures var r := Simulate(a, cfg, city, draw);
      && (r.state == Developed <==> CheckDevelopmentCriteria(a, city) && draw < cfg.redevelopChance)
      && (r.state != Developed ==> r.state == Abandoned)
      && r.level == a.level
  {
  }

  /** With the abandonment chance forced to 1, a developed zone one tick past the threshold and without access is abandoned. */
  lemma ForcedAbandonment(a: Attribute, cfg: Config, city: City, draw: real)
    requires a.state == Developed && a.abandonmentCounter == cfg.abandonmentThreshold + 1
    requires !CheckDevelopmentCriteria(a, city)
    requires cfg.abandonmentChance == 1.0 && 0.0 <= draw < 1.0
    ensures Simulate(a, cfg, city, draw).state == Abandoned
  {
  }

  /** The same zone with road access is not abandoned: the criteria check resets the counter before the comparison. */
  lemma AccessPreventsAbandonment(a: Attribute, cfg: Config, city: City, draw: real)
    requires a.state == Developed && cfg.abandonmentThreshold >= 0
    requires CheckDevelopmentCriteria(a, city)
    ensures Simulate(a, cfg, city, draw).state == Developed
  {
  }

  // ---------------------------------------------------------------------------
  // Many ticks
  // ---------------------------------------------------------------------------

  /** The attribute's bounds hold after any number of ticks. */
  lemma {:induction false} RunValid(a: Attribute, cfg: Config, ticks: seq<Tick>)
    requires Valid(a)
    ensures Valid(Run(a, cfg, ticks))
    decreases |ticks|
  {
    if |ticks| > 0 {
      RunValid(Simulate(a, cfg, ticks[0].city, ticks[0].draw), cfg, ticks[1..]);
    }
  }

  /** N consecutive ticks without road access add exactly N to the abandonment counter. */
  lemma {:induction false} RunWithoutAccess(a: Attribute, cfg: Config, ticks: seq<Tick>)
    requires forall i :: 0 <= i < |ticks| ==> !CheckDevelopmentCriteria(a, ticks[i].city)
    ensures Run(a, cfg, ticks).abandonmentCounter == a.abandonmentCounter + |ticks|
    decreases |ticks|
  {
    if |ticks| > 0 {
      var b := Simulate(a, cfg, ticks[0].city, ticks[0].draw);
      assert !CheckDevelopmentCriteria(a, ticks[0].city);
      forall i | 0 <= i < |ticks[1..]|
        ensures !CheckDevelopmentCriteria(b, ticks[1..][i].city)
      {
        assert !CheckDevelopmentCriteria(a, ticks[i + 1].city);
      }
      RunWithoutAccess(b, cfg, ticks[1..]);
    }
  }

  /** After any nonempty run of ticks with road access the abandonment counter is 0. */
  lemma {:induction false} RunWithAccess(a: Attribute, cfg: Config, ticks: seq<Tick>)
    requires |ticks| > 0
    requires forall i :: 0 <= i < |ticks| ==> CheckDevelopmentCriteria(a, ticks[i].city)
    ensures Run(a, cfg, ticks).abandonmentCounter == 0
    decreases |ticks|
  {
    var b := Simulate(a, cfg, ticks[0].city, ticks[0].draw);
    assert CheckDevelopmentCriteria(a, ticks[0].city);
    if |ticks| > 1 {
      forall i | 0 <= i < |ticks[1..]|
        ensures CheckDevelopmentCriteria(b, ticks[1..][i].city)
      {
        assert CheckDevelopmentCriteria(a, ticks[i + 1].city);
      }
      RunWithAccess(b, cfg, ticks[1..]);
    }
  }

  /** Once a zone has left the undeveloped state it never returns to it. */
  lemma {:induction false} RunNeverUndeveloped(a: Attribute, cfg: Config, ticks: seq<Tick>)
    requires a.state != Undeveloped
    ensures Run(a, cfg, ticks).state != Undeveloped
    decreases |ticks|
  {
    if |ticks| > 0 {
      RunNeverUndeveloped(Simulate(a, cfg, ticks[0].city, ticks[0].draw), cfg, ticks[1..]);
    }
  }

  /** Once a zone is developed it cycles between developed and abandoned and never goes back under construction. */
  lemma {:induction false} RunStaysBuilt(a: Attribute, cfg: Config, ticks: seq<Tick>)
    requires a.state == Developed || a.state == Abandoned
    ensures Run(a, cfg, ticks).state == Developed || Run(a, cfg, ticks).state == Abandoned
    decreases |ticks|
  {
    if |ticks| > 0 {
      RunStaysBuilt(Simulate(a, cfg, ticks[0].city, ticks[0].draw), cfg, ticks[1..]);
    }
  }

  /**
   * Construction lasts exactly `constructionTime` ticks from a counter of 0 (more generally, `constructionTime - c`
   * ticks from a counter `c` below it), whatever the road access and the draws: every shorter run is still under
   * construction, with the counter equal to the ticks spent.
   */
  lemma {:induction false} ConstructionDuration(a: Attribute, cfg: Config, ticks: seq<Tick>)
    requires a.state == UnderConstruction && 0 <= a.constructionCounter < cfg.constructionTime
    requires |ticks| <= cfg.constructionTime - a.constructionCounter
    ensures var r := Run(a, cfg, ticks);
      if |ticks| == cfg.constructionTime - a.constructionCounter then
        r.state == Developed && r.level == 1 && r.constructionCounter == 0
      else
        r.state == UnderConstruction && r.constructionCounter == a.constructionCounter + |ticks|
    decreases |ticks|
  {
    if |ticks| > 0 {
      var b := Simulate(a, cfg, ticks[0].city, ticks[0].draw);
      ConstructionStep(a, cfg, ticks[0].city, ticks[0].draw);
      if a.constructionCounter + 1 < cfg.constructionTime {
        ConstructionDuration(b, cfg, ticks[1..]);
      }
    }
  }

  /**
   * A new zone with road access on its first tick, whose first draw succeeds, is developed at level 1 after
   * `constructionTime + 1` ticks, whatever the later ticks bring.
   */
  lemma {:induction false} DevelopmentWithSureDraws(zone: Zone, cfg: Config, ticks: seq<Tick>)
    requires cfg.constructionTime >= 1 && |ticks| == cfg.constructionTime + 1
    requires CheckDevelopmentCriteria(Create(zone), ticks[0].city) && ticks[0].draw < cfg.redevelopChance
    ensures Run(Create(zone), cfg, ticks).state == Developed
    ensures Run(Create(zone), cfg, ticks).level == 1
  {
    var b := Simulate(Create(zone), cfg, ticks[0].city, ticks[0].draw);
    UndevelopedStep(Create(zone), cfg, ticks[0].city, ticks[0].draw);
    ConstructionDuration(b, cfg, ticks[1..]);
  }
}

=== FILE: graph_scenarios.dfy ===
/**
 * Runs of `updateTile` with east-west roads on neighbouring slots: the two-road run (place, link, remove), and the
 * replacement that leaves a neighbour with an edge into a tile that is no longer in the grid.
 */
module GraphScenarios {
  import opened Wrappers
  import opened VehicleGraph

  /** A template with in and out nodes on both its left and its right side. */
  predicate EastWest(m: Template)
  {
    && ValidTemplate(m)
    && Port(Left, In) in m.ports && Port(Left, Out) in m.ports
    && Port(Right, In) in m.ports && Port(Right, Out) in m.ports
  }

  /** A straight east-west road: in and out nodes on the left and right sides, each in node leading across the tile. */
  function Straight(): (m: Template)
    ensures EastWest(m)
  {
    Template(
      {Port(Left, In), Port(Left, Out), Port(Right, In), Port(Right, Out)},
      map[Port(Left, In) := [Port(Right, Out)], Port(Right, In) := [Port(Left, Out)]])
  }

  /** Placing a buildable road on an empty slot of a graph that keeps the invariant, as `updateTile` is written. */
  lemma PlaceOnEmpty(g: Graph, x: int, y: int, road: Option<Road>, m: Template)
    requires Inv(g) && InGrid(g.size, x, y) && GetTile(g, x, y).None? && ValidTemplate(m) && Buildable(road)
    ensures var r := UpdateTile(g, x, y, road, Some(m));
      && Inv(r)
      && GetTile(r, x, y) == Some(Tile(g.created, x, y, m.ports))
      && r.created == g.created + 1
  {
    UpdateTileAgrees(g, x, y, road, Some(m));
    UpdateTileDisconnectingPreservesInv(g, x, y, road, Some(m));
  }

  /** Two east-west roads placed side by side on empty slots, first at (x, y) and then at (x + 1, y). */
  lemma TwoRoads(g0: Graph, x: int, y: int, road: Option<Road>, m: Template)
    requires Inv(g0) && InGrid(g0.size, x, y) && InGrid(g0.size, x + 1, y) && EastWest(m) && Buildable(road)
    requires GetTile(g0, x, y).None? && GetTile(g0, x + 1, y).None?
    ensures var g1 := UpdateTile(g0, x, y, road, Some(m));
      var g2 := UpdateTile(g1, x + 1, y, road, Some(m));
      && Inv(g2)
      && GetTile(g2, x, y) == Some(Tile(g0.created, x, y, m.ports))
      && GetTile(g2, x + 1, y) == Some(Tile(g0.created + 1, x + 1, y, m.ports))
      && g2.created == g0.created + 2
  {
    PlaceOnEmpty(g0, x, y, road, m);
    PlaceOnEmpty(UpdateTile(g0, x, y, road, Some(m)), x + 1, y, road, m);
  }

  /** Two straight roads built side by side on empty slots are linked both ways across their shared side. */
  lemma StraightRoadsLinked(g0: Graph, x: int, y: int, road: Option<Road>)
    requires Inv(g0) && InGrid(g0.size, x, y) && InGrid(g0.size, x + 1, y) && Buildable(road)
    requires GetTile(g0, x, y).None? && GetTile(g0, x + 1, y).None?
    ensures var g1 := UpdateTile(g0, x, y, road, Some(Straight()));
      var g2 := UpdateTile(g1, x + 1, y, road, Some(Straight()));
      && NodeId(g0.created + 1, x + 1, y, Port(Left, In)) in Next(g2, NodeId(g0.created, x, y, Port(Right, Out)))
      && NodeId(g0.created, x, y, Port(Right, In)) in Next(g2, NodeId(g0.created + 1, x + 1, y, Port(Left, Out)))
  {
    var m := Straight();
    TwoRoads(g0, x, y, road, m);
    var g2 := UpdateTile(UpdateTile(g0, x, y, road, Some(m)), x + 1, y, road, Some(m));
    TwoRoadsLinked(g2, x, y, Tile(g0.created, x, y, m.ports), Tile(g0.created + 1, x + 1, y, m.ports));
  }

  /**
   * Two east-west roads at (x, y) and (x + 1, y) are linked both ways: the right out node of (x, y) leads to the left
   * in node of (x + 1, y) and the left out node of (x + 1, y) back to the right in node of (x, y). Removing the road
   * at (x + 1, y) then leaves the right out node of (x, y) with no edge at all.
   */
  lemma TwoRoadsLinkedThenCut(g2: Graph, x: int, y: int, t: Tile, u: Tile)
    requires Inv(g2) && InGrid(g2.size, x, y) && InGrid(g2.size, x + 1, y)
    requires GetTile(g2, x, y) == Some(t) && GetTile(g2, x + 1, y) == Some(u)
    requires Port(Right, In) in t.ports && Port(Right, Out) in t.ports
    requires Port(Left, In) in u.ports && Port(Left, Out) in u.ports
    ensures NodeId(u.id, x + 1, y, Port(Left, In)) in Next(g2, NodeId(t.id, x, y, Port(Right, Out)))
    ensures NodeId(t.id, x, y, Port(Right, In)) in Next(g2, NodeId(u.id, x + 1, y, Port(Left, Out)))
    ensures var g3 := UpdateTile(g2, x + 1, y, None, None);
      Inv(g3) && GetTile(g3, x + 1, y).None? && Next(g3, NodeId(t.id, x, y, Port(Right, Out))) == []
  {
    TwoRoadsLinked(g2, x, y, t, u);
    SecondRoadRemoved(g2, x, y, t, u);
  }

  lemma TwoRoadsLinked(g2: Graph, x: int, y: int, t: Tile, u: Tile)
    requires Inv(g2) && InGrid(g2.size, x, y) && InGrid(g2.size, x + 1, y)
    requires GetTile(g2, x, y) == Some(t) && GetTile(g2, x + 1, y) == Some(u)
    requires Port(Right, In) in t.ports && Port(Right, Out) in t.ports
    requires Port(Left, In) in u.ports && Port(Left, Out) in u.ports
    ensures NodeId(u.id, x + 1, y, Port(Left, In)) in Next(g2, NodeId(t.id, x, y, Port(Right, Out)))
    ensures NodeId(t.id, x, y, Port(Right, In)) in Next(g2, NodeId(u.id, x + 1, y, Port(Left, Out)))
  {
    var a := NodeId(t.id, x, y, Port(Right, Out));
    var b := NodeId(u.id, x + 1, y, Port(Left, In));
    assert Live(g2, a) && Live(g2, b) && Facing(a, b);
    var a' := NodeId(u.id, x + 1, y, Port(Left, Out));
    var b' := NodeId(t.id, x, y, Port(Right, In));
    assert Live(g2, a') && Live(g2, b') && Facing(a', b');
  }

  lemma SecondRoadRemoved(g2: Graph, x: int, y: int, t: Tile, u: Tile)
    requires Inv(g2) && InGrid(g2.size, x, y) && InGrid(g2.size, x + 1, y)
    requires GetTile(g2, x, y) == Some(t) && GetTile(g2, x + 1, y) == Some(u)
    requires Port(Right, Out) in t.ports
    ensures var g3 := UpdateTile(g2, x + 1, y, None, None);
      Inv(g3) && GetTile(g3, x + 1, y).None? && Next(g3, NodeId(t.id, x, y, Port(Right, Out))) == []
  {
    var a := NodeId(t.id, x, y, Port(Right, Out));
    var r := Remove(g2, x + 1, y);
    assert Inv(r) && Next(r, a) == [] by {
      RemovePreservesInv(g2, x + 1, y);
      RemoveNext(g2, x + 1, y, a);
      assert OutOf(Neighbour(g2, x + 1, y, Left), Right) == Some(a);
    }
    UpdateTileRemoves(g2, x + 1, y, None);
  }

  /** Two facing live nodes with an edge between them. */
  ghost predicate LinkedPair(g: Graph, a: NodeId, b: NodeId)
    requires Shaped(g)
  {
    Live(g, a) && Live(g, b) && b in Next(g, a)
  }

  /** A node at (x, y) keeps its edge into the old tile at (x + 1, y) when a buildable road replaces that tile. */
  lemma ReplacedByRoad(g2: Graph, x: int, y: int, a: NodeId, b: NodeId, road: Option<Road>, m: Template)
    requires Shaped(g2) && Placed(g2) && InGrid(g2.size, x + 1, y) && LinkedPair(g2, a, b)
    requires (a.x, a.y) == (x, y) && (b.x, b.y) == (x + 1, y) && ValidTemplate(m) && Buildable(road)
    ensures var g3 := UpdateTile(g2, x + 1, y, road, Some(m));
      Live(g3, a) && b in Next(g3, a) && !Live(g3, b)
  {
    var g3 := Place(g2, x + 1, y, Some(m));
    ReplacedByPlace(g2, x + 1, y, a, b, Some(m));
    assert Live(g3, a) && b in Next(g3, a) && !Live(g3, b);
    UpdateTilePlaces(g2, x + 1, y, road, Some(m));
  }

  lemma ReplacedByPlace(g2: Graph, x: int, y: int, a: NodeId, b: NodeId, made: Option<Template>)
    requires Shaped(g2) && Placed(g2) && InGrid(g2.size, x, y) && LinkedPair(g2, a, b)
    requires (a.x, a.y) != (x, y) && (b.x, b.y) == (x, y) && (made.Some? ==> ValidTemplate(made.value))
    ensures var g3 := Place(g2, x, y, made);
      Live(g3, a) && b in Next(g3, a) && !Live(g3, b)
  {
    PlaceKeepsEdges(g2, x, y, made, a, b);
    PlaceRetires(g2, x, y, made, a, b);
  }

  /** The same edge survives when a road that cannot be built (no rotation or no style) clears (x + 1, y). */
  lemma ReplacedByUnbuildable(g2: Graph, x: int, y: int, a: NodeId, b: NodeId, road: Option<Road>)
    requires Shaped(g2) && Placed(g2) && InGrid(g2.size, x + 1, y) && LinkedPair(g2, a, b)
    requires (a.x, a.y) == (x, y) && (b.x, b.y) == (x + 1, y) && road.Some? && !Buildable(road)
    ensures var g4 := UpdateTile(g2, x + 1, y, road, None);
      Live(g4, a) && b in Next(g4, a) && !Live(g4, b)
  {
    var g4 := UpdateTile(g2, x + 1, y, road, None);
    assert g4 == SetSlot(g2, x + 1, y, None);
    assert GetTile(g4, x, y) == GetTile(g2, x, y);
  }

  /** An edge from a live node to one that is not live breaks `EdgesSound`. */
  lemma Dangling(g: Graph, a: NodeId, b: NodeId)
    requires Shaped(g) && Live(g, a) && b in Next(g, a) && !Live(g, b)
    ensures !EdgesSound(g)
  {
  }

  /**
   * `updateTile` as written, given a road for a slot that already holds a tile, stores the new tile (or clears the
   * slot) without disconnecting the old one: with roads at (x, y) and (x + 1, y), a buildable road placed at (x + 1, y)
   * again, or a road without rotation or style given there, leaves the right out node of (x, y) with an edge into the
   * replaced tile, whose nodes are no longer in the grid. The version that disconnects first keeps the invariant on
   * the same input.
   */
  lemma ReplacementLeavesDanglingEdge(g2: Graph, x: int, y: int, t: Tile, u: Tile, road: Option<Road>,
                                      bad: Option<Road>, m: Template)
    requires Inv(g2) && InGrid(g2.size, x, y) && InGrid(g2.size, x + 1, y)
    requires GetTile(g2, x, y) == Some(t) && GetTile(g2, x + 1, y) == Some(u)
    requires Port(Right, Out) in t.ports && Port(Left, In) in u.ports
    requires ValidTemplate(m) && Buildable(road) && bad.Some? && !Buildable(bad)
    ensures !EdgesSound(UpdateTile(g2, x + 1, y, road, Some(m)))
    ensures !EdgesSound(UpdateTile(g2, x + 1, y, bad, None))
    ensures Inv(UpdateTileDisconnecting(g2, x + 1, y, road, Some(m)))
  {
    var a := NodeId(t.id, x, y, Port(Right, Out));
    var b := NodeId(u.id, x + 1, y, Port(Left, In));
    assert Live(g2, a) && Live(g2, b) && Facing(a, b);
    assert LinkedPair(g2, a, b);
    ReplacedByRoad(g2, x, y, a, b, road, m);
    Dangling(UpdateTile(g2, x + 1, y, road, Some(m)), a, b);
    ReplacedByUnbuildable(g2, x, y, a, b, bad);
    Dangling(UpdateTile(g2, x + 1, y, bad, None), a, b);
    UpdateTileDisconnectingPreservesInv(g2, x + 1, y, road, Some(m));
  }
}

=== FILE: spawner.dfy ===
/**
 * Vehicle spawning on the lane graph (`spawnVehicle`, `getStartingTile`, `getValidPopulation` and
 * `calculateMaxVehicles` in src/city/vehicle/vehicleGraph.ts).
 *
 * The live vehicles (`this.vehicles.children`) are a sequence; a spawn appends one. Every `Math.random()` is a
 * `real` draw in [0, 1), an argument. `city.getPopulation()` after `parseInt` is an `Option<int>`, `None` standing for
 * `NaN`. `VehicleGraphTile.getRandomNode()` and `VehicleGraphNode.getRandomNextNode()` are not part of this model;
 * they are taken to pick like `getStartingTile` does: index `floor(length * draw)` of the tile's nodes (in the port
 * order of `PortOrder`) and of the node's `next`, nothing when the list is empty.
 */
module Spawner {
  import opened Wrappers
  import opened VehicleGraph

  datatype Vehicle = Vehicle(origin: NodeId, destination: NodeId)

  /** The draws of one `spawnVehicle` call: the spawn gate, then the starting tile, the node and the edge. */
  datatype Draws = Draws(gate: real, tile: real, node: real, edge: real)

  /** A value `Math.random()` can return. */
  predicate IsDraw(r: real)
  {
    0.0 <= r < 1.0
  }

  predicate AreDraws(d: Draws)
  {
    IsDraw(d.gate) && IsDraw(d.tile) && IsDraw(d.node) && IsDraw(d.edge)
  }

  predicate AllDraws(ds: seq<Draws>)
  {
    forall i :: 0 <= i < |ds| ==> AreDraws(ds[i])
  }

  // ---------------------------------------------------------------------------
  // Population and capacity
  // ---------------------------------------------------------------------------

  /** `getValidPopulation`: the parsed population, 0 when it does not parse. */
  function ValidPopulation(parsed: Option<int>): int
  {
    match parsed
    case None => 0
    case Some(p) => p
  }

  /** `calculateMaxVehicles`: `Math.floor((population / 4) * 2)`, in exact arithmetic. */
  function MaxVehicles(population: int): int
  {
    (population as real / 4.0 * 2.0).Floor
  }

  /** The capacity is half the population, rounded down: `floor(population / 2)`, not `floor(population / 4) * 2`. */
  lemma MaxVehiclesHalf(population: int)
    ensures MaxVehicles(population) == population / 2
    ensures 0 <= population ==> 0 <= MaxVehicles(population) <= population
  {
    var q, r := population / 2, population % 2;
    assert population as real / 4.0 * 2.0 == q as real + r as real / 2.0;
  }

  // ---------------------------------------------------------------------------
  // Random picks
  // ---------------------------------------------------------------------------

  /** `Math.floor(n * draw)`: an index into a list of length `n`. */
  function Index(n: nat, draw: real): (i: nat)
    requires 0 < n && IsDraw(draw)
    ensures i < n
  {
    IndexBound(n, draw);
    (n as real * draw).Floor
  }

  lemma IndexBound(n: nat, draw: real)
    requires 0 < n && IsDraw(draw)
    ensures 0 <= (n as real * draw).Floor < n
  {
    assert 0.0 <= n as real * draw;
    assert n as real * draw < n as real by {
      assert n as real * (1.0 - draw) > 0.0;
    }
  }

  /** Every index is picked by some draw: the draw `i / n` picks index `i`. */
  lemma IndexReaches(n: nat, i: nat)
    requires i < n
    ensures IsDraw(i as real / n as real) && Index(n, i as real / n as real) == i
  {
    assert n as real * (i as real / n as real) == i as real;
  }

  /**
   * Each index is picked by exactly the draws in one interval of width `1 / n`: with a uniform draw, every index is
   * equally likely.
   */
  lemma IndexInterval(n: nat, draw: real, i: nat)
    requires 0 < n && IsDraw(draw) && i < n
    ensures Index(n, draw) == i <==> i as real / n as real <= draw < (i + 1) as real / n as real
  {
    var x := n as real * draw;
    ScaledBelow(n as real, i as real, draw);
    ScaledBelow(n as real, (i + 1) as real, draw);
    assert Index(n, draw) == x.Floor;
    assert x.Floor as real <= x < x.Floor as real + 1.0;
  }

  /** Scaling by a positive `n`: `a / n <= d` exactly when `a <= n * d`, and `d < a / n` exactly when `n * d < a`. */
  lemma ScaledBelow(n: real, a: real, d: real)
    requires n > 0.0
    ensures a / n <= d <==> a <= n * d
    ensures d < a / n <==> n * d < a
  {
    assert n * (a / n) == a;
    if a / n <= d {
      assert n * (a / n) <= n * d;
    }
    if a <= n * d {
      assert a / n <= (n * d) / n;
    }
    if d < a / n {
      assert n * d < n * (a / n);
    }
    if n * d < a {
      assert (n * d) / n < a / n;
    }
  }

  /** `list[Math.floor(list.length * draw)]`, which is `undefined` for an empty list. */
  function Pick<T>(s: seq<T>, draw: real): (r: Option<T>)
    requires IsDraw(draw)
    ensures r.None? <==> |s| == 0
    ensures r.Some? ==> r.value in s
  {
    if |s| == 0 then None else Some(s[Index(|s|, draw)])
  }

  /** The draws in `[i / |s|, (i + 1) / |s|)` pick element `i`, so with a uniform draw every element is equally likely. */
  lemma PickInterval<T>(s: seq<T>, draw: real, i: nat)
    requires IsDraw(draw) && i < |s|
    requires i as real / |s| as real <= draw < (i + 1) as real / |s| as real
    ensures Pick(s, draw) == Some(s[i])
  {
    IndexInterval(|s|, draw, i);
  }

  // ---------------------------------------------------------------------------
  // The starting tile
  // ---------------------------------------------------------------------------

  /** The tiles of column x in rows 0 to n - 1, top to bottom. */
  function ColumnTiles(g: Graph, x: int, n: nat): seq<Tile>
    requires Shaped(g)
  {
    if n == 0 then []
    else ColumnTiles(g, x, n - 1) + (if GetTile(g, x, n - 1).Some? then [GetTile(g, x, n - 1).value] else [])
  }

  /** The tiles of columns 0 to n - 1, in the order `getStartingTile` collects them. */
  function GridTiles(g: Graph, n: nat): seq<Tile>
    requires Shaped(g)
  {
    if n == 0 then [] else GridTiles(g, n - 1) + ColumnTiles(g, n - 1, g.size)
  }

  /** The occupied slots of the grid. */
  ghost predicate Occupied(g: Graph, t: Tile)
    requires Shaped(g)
  {
    exists x, y :: GetTile(g, x, y) == Some(t)
  }

  lemma {:induction false} ColumnTilesHas(g: Graph, x: int, n: nat, t: Tile)
    requires Shaped(g)
    ensures t in ColumnTiles(g, x, n) <==> exists y :: 0 <= y < n && GetTile(g, x, y) == Some(t)
  {
    if n > 0 {
      ColumnTilesHas(g, x, n - 1, t);
      if GetTile(g, x, n - 1) == Some(t) {
        assert t in ColumnTiles(g, x, n);
      }
    }
  }

  lemma {:induction false} GridTilesHas(g: Graph, n: nat, t: Tile)
    requires Shaped(g)
    ensures t in GridTiles(g, n) <==> exists x, y :: 0 <= x < n && 0 <= y < g.size && GetTile(g, x, y) == Some(t)
  {
    if n > 0 {
      GridTilesHas(g, n - 1, t);
      ColumnTilesHas(g, n - 1, g.size, t);
      if t in ColumnTiles(g, n - 1, g.size) {
        var y :| 0 <= y < g.size && GetTile(g, n - 1, y) == Some(t);
        assert 0 <= n - 1 < n && GetTile(g, n - 1, y) == Some(t);
      }
    }
  }

  /** The collected tiles are exactly the tiles in the grid's slots. */
  lemma AllTilesCollected(g: Graph, t: Tile)
    requires Shaped(g)
    ensures t in GridTiles(g, g.size) <==> Occupied(g, t)
  {
    GridTilesHas(g, g.size, t);
    if Occupied(g, t) {
      var x, y :| GetTile(g, x, y) == Some(t);
      assert 0 <= x < g.size && 0 <= y < g.size;
    }
  }

  /** `getStartingTile` with its draw: a tile picked from the collected tiles. */
  function StartingTile(g: Graph, draw: real): Option<Tile>
    requires Shaped(g) && IsDraw(draw)
  {
    Pick(GridTiles(g, g.size), draw)
  }

  /** `getStartingTile` is null exactly when no slot is occupied, and otherwise a tile of an occupied slot. */
  lemma StartingTileOccupied(g: Graph, draw: real)
    requires Shaped(g) && IsDraw(draw)
    ensures StartingTile(g, draw).None? <==> forall x, y :: GetTile(g, x, y).None?
    ensures StartingTile(g, draw).Some? ==> Occupied(g, StartingTile(g, draw).value)
  {
    var tiles := GridTiles(g, g.size);
    if |tiles| > 0 {
      AllTilesCollected(g, tiles[0]);
      AllTilesCollected(g, StartingTile(g, draw).value);
    }
    if exists x, y :: GetTile(g, x, y).Some? {
      var x, y :| GetTile(g, x, y).Some?;
      AllTilesCollected(g, GetTile(g, x, y).value);
    }
  }

  /** The two loops of `getStartingTile`: the tiles of the occupied slots, column by column. */
  method CollectTiles(g: Graph) returns (tiles: seq<Tile>)
    requires Shaped(g)
    ensures tiles == GridTiles(g, g.size)
  {
    tiles := [];
    for x := 0 to g.size
      invariant tiles == GridTiles(g, x)
    {
      for y := 0 to g.size
        invariant tiles == GridTiles(g, x) + ColumnTiles(g, x, y)
      {
        var tile := GetTile(g, x, y);
        if tile.Some? {
          tiles := tiles + [tile.value];
        }
      }
    }
  }

  /** `getStartingTile` as the program computes it: the collected tiles, then the pick. */
  method GetStartingTile(g: Graph, draw: real) returns (t: Option<Tile>)
    requires Shaped(g) && IsDraw(draw)
    ensures t == StartingTile(g, draw)
    ensures t.None? <==> forall x, y :: GetTile(g, x, y).None?
    ensures t.Some? ==> Occupied(g, t.value)
  {
    var tiles := CollectTiles(g);
    if |tiles| == 0 {
      t := None;
    } else {
      var i := Index(|tiles|, draw);
      t := Some(tiles[i]);
    }
    StartingTileOccupied(g, draw);
  }

  // ---------------------------------------------------------------------------
  // Nodes of a tile
  // ---------------------------------------------------------------------------

  /** The order in which a tile lists its nodes. */
  const PortOrder: seq<Port> := [
    Port(Left, In), Port(Left, Out), Port(Right, In), Port(Right, Out),
    Port(Top, In), Port(Top, Out), Port(Bottom, In), Port(Bottom, Out)
  ]

  lemma PortOrderComplete(p: Port)
    ensures p in PortOrder
  {
    var i := match p.side
      case Left => 0
      case Right => 2
      case Top => 4
      case Bottom => 6;
    var j := if p.dir == In then i else i + 1;
    assert PortOrder[j] == p;
  }

  /** The nodes of `t` at the ports of `ps` that it has, in the order of `ps`. */
  function NodesAt(t: Tile, ps: seq<Port>): (r: seq<NodeId>)
    ensures forall i :: 0 <= i < |r| ==> r[i] == NodeOf(t, r[i].port) && r[i].port in t.ports && r[i].port in ps
    ensures forall p :: p in ps && p in t.ports ==> NodeOf(t, p) in r
  {
    if |ps| == 0 then []
    else (if ps[0] in t.ports then [NodeOf(t, ps[0])] else []) + NodesAt(t, ps[1..])
  }

  /** The nodes of a tile: one per port it has. */
  function TileNodes(t: Tile): (r: seq<NodeId>)
    ensures forall n :: n in r <==> n.port in t.ports && n == NodeOf(t, n.port)
  {
    var r := NodesAt(t, PortOrder);
    forall n: NodeId
      ensures n in r <==> n.port in t.ports && n == NodeOf(t, n.port)
    {
      PortOrderComplete(n.port);
      if n in r {
        var i :| 0 <= i < |r| && r[i] == n;
      }
    }
    r
  }

  // ---------------------------------------------------------------------------
  // spawnVehicle
  // ---------------------------------------------------------------------------

  /** The spawn gate: a positive population, room below the capacity, and a gate draw below capacity / population. */
  predicate Open(count: int, population: int, gate: real)
  {
    1 <= population && count < MaxVehicles(population) && gate < MaxVehicles(population) as real / population as real
  }

  /** A vehicle starts at a node of an occupied slot's tile and heads for one of that node's out-edges. */
  ghost predicate Spawnable(g: Graph, v: Vehicle)
    requires Shaped(g)
  {
    && (exists x, y :: GetTile(g, x, y).Some? && v.origin in TileNodes(GetTile(g, x, y).value))
    && v.destination in Next(g, v.origin)
  }

  /** `spawnVehicle`: the live vehicles after one call. */
  function Spawn(g: Graph, vehicles: seq<Vehicle>, parsed: Option<int>, d: Draws): (r: seq<Vehicle>)
    requires Shaped(g) && AreDraws(d)
    ensures vehicles <= r && |r| <= |vehicles| + 1
    ensures |r| > |vehicles| ==> Open(|vehicles|, ValidPopulation(parsed), d.gate)
    ensures |vehicles| <= MaxVehicles(ValidPopulation(parsed)) ==> |r| <= MaxVehicles(ValidPopulation(parsed))
  {
    var population := ValidPopulation(parsed);
    if population < 1 then vehicles
    else
      var maxVehicles := MaxVehicles(population);
      if |vehicles| >= maxVehicles then vehicles
      else if d.gate >= maxVehicles as real / population as real then vehicles
      else
        match StartingTile(g, d.tile)
        case None => vehicles
        case Some(tile) =>
          match Pick(TileNodes(tile), d.node)
          case None => vehicles
          case Some(origin) =>
            match Pick(Next(g, origin), d.edge)
            case None => vehicles
            case Some(destination) => vehicles + [Vehicle(origin, destination)]
  }

  /** A spawned vehicle starts at a node of an occupied slot's tile and heads along one of that node's out-edges. */
  lemma SpawnedVehicle(g: Graph, vehicles: seq<Vehicle>, parsed: Option<int>, d: Draws)
    requires Shaped(g) && AreDraws(d)
    ensures var r := Spawn(g, vehicles, parsed, d);
      |r| > |vehicles| ==> Spawnable(g, r[|vehicles|])
  {
    StartingTileOccupied(g, d.tile);
    var r := Spawn(g, vehicles, parsed, d);
    if |r| > |vehicles| {
      var t := StartingTile(g, d.tile).value;
      var x, y :| GetTile(g, x, y) == Some(t);
      assert GetTile(g, x, y).Some? && r[|vehicles|].origin in TileNodes(GetTile(g, x, y).value);
    }
  }

  /** On a graph that keeps its invariant, both ends of a spawned vehicle are nodes of tiles in the grid. */
  lemma SpawnedOnLiveNodes(g: Graph, vehicles: seq<Vehicle>, parsed: Option<int>, d: Draws)
    requires Inv(g) && AreDraws(d)
    ensures var r := Spawn(g, vehicles, parsed, d);
      |r| > |vehicles| ==> Live(g, r[|vehicles|].origin) && Live(g, r[|vehicles|].destination)
  {
    SpawnedVehicle(g, vehicles, parsed, d);
    var r := Spawn(g, vehicles, parsed, d);
    if |r| > |vehicles| {
      var v := r[|vehicles|];
      var x, y :| GetTile(g, x, y).Some? && v.origin in TileNodes(GetTile(g, x, y).value);
      assert Live(g, v.origin);
      assert v.destination in Next(g, v.origin);
    }
  }

  /** Nothing spawns on an empty grid, with no population, or at capacity. */
  lemma NoSpawn(g: Graph, vehicles: seq<Vehicle>, parsed: Option<int>, d: Draws)
    requires Shaped(g) && AreDraws(d)
    requires || (forall x, y :: GetTile(g, x, y).None?)
             || ValidPopulation(parsed) < 1
             || |vehicles| >= MaxVehicles(ValidPopulation(parsed))
    ensures Spawn(g, vehicles, parsed, d) == vehicles
  {
    StartingTileOccupied(g, d.tile);
  }

  /**
   * When the gate is open, the grid holds a tile, every tile in the grid has a node and every node of every tile in
   * the grid has an out-edge, one vehicle is spawned.
   */
  lemma SpawnWhenOpen(g: Graph, vehicles: seq<Vehicle>, parsed: Option<int>, d: Draws)
    requires Shaped(g) && AreDraws(d)
    requires Open(|vehicles|, ValidPopulation(parsed), d.gate)
    requires exists x, y :: GetTile(g, x, y).Some?
    requires forall x, y :: GetTile(g, x, y).Some? ==> |TileNodes(GetTile(g, x, y).value)| > 0
    requires forall x, y, n :: GetTile(g, x, y).Some? && n in TileNodes(GetTile(g, x, y).value) ==> |Next(g, n)| > 0
    ensures |Spawn(g, vehicles, parsed, d)| == |vehicles| + 1
  {
    StartingTileOccupied(g, d.tile);
    var t := StartingTile(g, d.tile).value;
    var x, y :| GetTile(g, x, y) == Some(t);
    assert GetTile(g, x, y).Some?;
    var origin := Pick(TileNodes(t), d.node).value;
    assert origin in TileNodes(GetTile(g, x, y).value);
  }

  /** An open gate and an origin, picked from the picked starting tile, that has an out-edge are enough to spawn. */
  lemma SpawnWhenPicksSucceed(g: Graph, vehicles: seq<Vehicle>, parsed: Option<int>, d: Draws, t: Tile, o: NodeId)
    requires Shaped(g) && AreDraws(d) && Open(|vehicles|, ValidPopulation(parsed), d.gate)
    requires StartingTile(g, d.tile) == Some(t) && Pick(TileNodes(t), d.node) == Some(o) && |Next(g, o)| > 0
    ensures |Spawn(g, vehicles, parsed, d)| == |vehicles| + 1
  {
  }

  /**
   * The cycle gives up, rather than trying another node, when the picked tile has no node or the picked origin has no
   * out-edge.
   */
  lemma SpawnAbortsWithoutPicks(g: Graph, vehicles: seq<Vehicle>, parsed: Option<int>, d: Draws, t: Tile, o: NodeId)
    requires Shaped(g) && AreDraws(d) && StartingTile(g, d.tile) == Some(t)
    ensures TileNodes(t) == [] ==> Spawn(g, vehicles, parsed, d) == vehicles
    ensures Pick(TileNodes(t), d.node) == Some(o) && Next(g, o) == [] ==> Spawn(g, vehicles, parsed, d) == vehicles
  {
  }

  /** `spawnVehicle` called once per draw, the population staying the same. */
  function Spawns(g: Graph, vehicles: seq<Vehicle>, parsed: Option<int>, ds: seq<Draws>): seq<Vehicle>
    requires Shaped(g) && AllDraws(ds)
    decreases |ds|
  {
    if |ds| == 0 then vehicles else Spawns(g, Spawn(g, vehicles, parsed, ds[0]), parsed, ds[1..])
  }

  /**
   * However many times `spawnVehicle` fires, the vehicles only grow, by at most one per call, and never beyond the
   * capacity unless they were already beyond it.
   */
  lemma {:induction false} SpawnsBounded(g: Graph, vehicles: seq<Vehicle>, parsed: Option<int>, ds: seq<Draws>)
    requires Shaped(g) && AllDraws(ds)
    ensures var r := Spawns(g, vehicles, parsed, ds);
      var cap := MaxVehicles(ValidPopulation(parsed));
      && vehicles <= r && |r| <= |vehicles| + |ds|
      && (|vehicles| <= cap ==> |r| <= cap)
      && (cap < |vehicles| ==> r == vehicles)
    decreases |ds|
  {
    if |ds| > 0 {
      var v := Spawn(g, vehicles, parsed, ds[0]);
      SpawnsBounded(g, v, parsed, ds[1..]);
      if MaxVehicles(ValidPopulation(parsed)) < |vehicles| {
        assert v == vehicles;
      }
    }
  }
}

=== FILE: vehicle_graph.dfy ===
/**
 * The lane graph of the road network (`VehicleGraph` in src/city/vehicle/vehicleGraph.ts).
 *
 * `VehicleGraphTile` and `VehicleGraphNode` are not part of this model and are described only through the interface
 * `updateTile` uses:
 * - a tile has four world sides (left, right, top, bottom), each with an optional `in` node and an optional `out`
 *   node; `Tile.ports` says which of the eight exist;
 * - a node has a `next` sequence of nodes; `connect(n)` appends `n` unless it is null and `disconnectAll()` empties
 *   `next` (on a tile, it empties `next` of every node of the tile);
 * - `VehicleGraphTile.create(x, y, rotation, style)` returns a fresh tile or null; its result is an argument here,
 *   a `Template` that gives the ports and the tile's internal wiring.
 * Node identity is object identity in the program: a node is named by the instance number of the tile that owns it
 * (a counter the graph increments on every creation), the tile's coordinates and the port.
 * Left is x - 1, right is x + 1, top is y - 1 and bottom is y + 1.
 */
module VehicleGraph {
  import opened Wrappers

  datatype Side = Left | Right | Top | Bottom
  datatype Dir = In | Out
  datatype Port = Port(side: Side, dir: Dir)

  datatype NodeId = NodeId(id: nat, x: int, y: int, port: Port)

  /** A placed tile: its instance number, its coordinates and the ports it has. */
  datatype Tile = Tile(id: nat, x: int, y: int, ports: set<Port>)

  /** What `VehicleGraphTile.create` builds: the ports and, per port, the ports of the same tile it leads to. */
  datatype Template = Template(ports: set<Port>, wiring: map<Port, seq<Port>>)

  /** The part of a road the graph reads: `road.rotation` (its `y`) and `road.style`. */
  datatype Road = Road(rotation: Option<real>, style: Option<string>)

  /**
   * `tiles[x][y]` is the slot of coordinate (x, y); `next` holds each node's out-edges (a node without an entry has
   * none); `created` counts the tiles created so far.
   */
  datatype Graph = Graph(size: nat, tiles: seq<seq<Option<Tile>>>, next: map<NodeId, seq<NodeId>>, created: nat)

  function Opposite(s: Side): Side
  {
    match s
    case Left => Right
    case Right => Left
    case Top => Bottom
    case Bottom => Top
  }

  /** The coordinate across side `s` of (x, y). */
  function Across(x: int, y: int, s: Side): (int, int)
  {
    match s
    case Left => (x - 1, y)
    case Right => (x + 1, y)
    case Top => (x, y - 1)
    case Bottom => (x, y + 1)
  }

  lemma AcrossBack(x: int, y: int, s: Side)
    ensures var (x', y') := Across(x, y, s); Across(x', y', Opposite(s)) == (x, y)
    ensures Across(x, y, s) != (x, y)
  {
  }

  predicate InGrid(size: int, x: int, y: int)
  {
    0 <= x < size && 0 <= y < size
  }

  /** The slots form a `size` by `size` grid. */
  ghost predicate Shaped(g: Graph)
  {
    && |g.tiles| == g.size
    && forall x :: 0 <= x < |g.tiles| ==> |g.tiles[x]| == g.size
  }

  function NodeOf(t: Tile, p: Port): NodeId
  {
    NodeId(t.id, t.x, t.y, p)
  }

  /** `getWorld<s>Side().out` of an optional tile. */
  function OutOf(t: Option<Tile>, s: Side): (n: Option<NodeId>)
    ensures n.Some? ==> t.Some? && n.value == NodeOf(t.value, Port(s, Out)) && Port(s, Out) in t.value.ports
  {
    if t.Some? && Port(s, Out) in t.value.ports then Some(NodeOf(t.value, Port(s, Out))) else None
  }

  /** `getWorld<s>Side().in` of an optional tile. */
  function InOf(t: Option<Tile>, s: Side): (n: Option<NodeId>)
    ensures n.Some? ==> t.Some? && n.value == NodeOf(t.value, Port(s, In)) && Port(s, In) in t.value.ports
  {
    if t.Some? && Port(s, In) in t.value.ports then Some(NodeOf(t.value, Port(s, In))) else None
  }

  function NextOf(next: map<NodeId, seq<NodeId>>, n: NodeId): seq<NodeId>
  {
    if n in next then next[n] else []
  }

  function Next(g: Graph, n: NodeId): seq<NodeId>
  {
    NextOf(g.next, n)
  }

  // ---------------------------------------------------------------------------
  // Construction and lookup
  // ---------------------------------------------------------------------------

  /** The constructor's grid initialisation: `size` columns of `size` empty slots, and no edges. */
  method Create(size: nat) returns (g: Graph)
    ensures g.size == size && Shaped(g) && Inv(g)
    ensures forall x, y :: GetTile(g, x, y) == None
  {
    var tiles: seq<seq<Option<Tile>>> := [];
    var x := 0;
    while x < size
      invariant 0 <= x <= size && |tiles| == x
      invariant forall i :: 0 <= i < x ==> |tiles[i]| == size
      invariant forall i, j :: 0 <= i < x && 0 <= j < size ==> tiles[i][j] == None
    {
      var column: seq<Option<Tile>> := [];
      var y := 0;
      while y < size
        invariant 0 <= y <= size && |column| == y
        invariant forall j :: 0 <= j < y ==> column[j] == None
      {
        column := column + [None];
        y := y + 1;
      }
      tiles := tiles + [column];
      x := x + 1;
    }
    g := Graph(size, tiles, map[], 0);
  }

  /** `getTile`: the slot's contents inside the grid, nothing outside it. */
  function GetTile(g: Graph, x: int, y: int): (t: Option<Tile>)
    requires Shaped(g)
    ensures !InGrid(g.size, x, y) ==> t.None?
    ensures InGrid(g.size, x, y) ==> t == g.tiles[x][y]
  {
    if 0 <= x < g.size && 0 <= y < g.size then g.tiles[x][y] else None
  }

  function SetSlot(g: Graph, x: int, y: int, t: Option<Tile>): (r: Graph)
    requires Shaped(g) && InGrid(g.size, x, y)
    ensures Shaped(r) && r.size == g.size && r.next == g.next && r.created == g.created
    ensures GetTile(r, x, y) == t
    ensures forall x', y' :: (x', y') != (x, y) ==> GetTile(r, x', y') == GetTile(g, x', y')
  {
    g.(tiles := g.tiles[x := g.tiles[x][y := t]])
  }

  // ---------------------------------------------------------------------------
  // The graph invariant
  // ---------------------------------------------------------------------------

  /** Every occupied slot holds a tile created at that coordinate. */
  ghost predicate Placed(g: Graph)
    requires Shaped(g)
  {
    forall x, y :: GetTile(g, x, y).Some? ==>
      GetTile(g, x, y).value.x == x && GetTile(g, x, y).value.y == y && GetTile(g, x, y).value.id < g.created
  }

  /** A node of a tile that is currently in the grid. */
  ghost predicate Live(g: Graph, n: NodeId)
    requires Shaped(g)
  {
    var t := GetTile(g, n.x, n.y);
    t.Some? && t.value.id == n.id && n.port in t.value.ports
  }

  /** `a` is an out node on some side and `b` the in node facing it on the opposite side of the next tile. */
  predicate Facing(a: NodeId, b: NodeId)
  {
    && a.port.dir == Out && b.port.dir == In
    && b.port.side == Opposite(a.port.side)
    && (b.x, b.y) == Across(a.x, a.y, a.port.side)
  }

  predicate SameTile(a: NodeId, b: NodeId)
  {
    a.id == b.id && a.x == b.x && a.y == b.y
  }

  /** No dangling edges: a live node leads only to live nodes, of its own tile or facing it across a side. */
  ghost predicate EdgesSound(g: Graph)
    requires Shaped(g)
  {
    forall n, m {:trigger m in Next(g, n)} :: Live(g, n) && m in Next(g, n) ==> Live(g, m) && (SameTile(n, m) || Facing(n, m))
  }

  /** Adjacent live tiles are linked: every out node leads to the in node that faces it, when both exist. */
  ghost predicate Linked(g: Graph)
    requires Shaped(g)
  {
    forall a, b {:trigger Facing(a, b)} :: Live(g, a) && Live(g, b) && Facing(a, b) ==> b in Next(g, a)
  }

  ghost predicate Inv(g: Graph)
  {
    Shaped(g) && Placed(g) && EdgesSound(g) && Linked(g)
  }

  /** Symmetric adjacency: under the invariant, an edge from one tile into the next is matched by the edge back. */
  lemma Symmetric(g: Graph, a: NodeId, b: NodeId)
    requires Inv(g)
    requires Live(g, a) && b in Next(g, a) && !SameTile(a, b)
    requires Live(g, a.(port := Port(a.port.side, In))) && Live(g, b.(port := Port(b.port.side, Out)))
    ensures Facing(a, b)
    ensures a.(port := Port(a.port.side, In)) in Next(g, b.(port := Port(b.port.side, Out)))
  {
    AcrossBack(a.x, a.y, a.port.side);
    assert Facing(b.(port := Port(b.port.side, Out)), a.(port := Port(a.port.side, In)));
  }

  predicate ValidTemplate(m: Template)
  {
    forall p :: p in m.wiring ==> p in m.ports && forall i :: 0 <= i < |m.wiring[p]| ==> m.wiring[p][i] in m.ports
  }

  // ---------------------------------------------------------------------------
  // Node operations
  // ---------------------------------------------------------------------------

  /** `from?.connect(to ?? null)`: append `to` to `from`'s edges when both are present. */
  function Connect(next: map<NodeId, seq<NodeId>>, from: Option<NodeId>, to: Option<NodeId>): (r: map<NodeId, seq<NodeId>>)
    ensures forall n :: NextOf(r, n) == if from == Some(n) && to.Some? then NextOf(next, n) + [to.value] else NextOf(next, n)
  {
    if from.Some? && to.Some? then next[from.value := NextOf(next, from.value) + [to.value]] else next
  }

  /** `node?.disconnectAll()`. */
  function Disconnect(next: map<NodeId, seq<NodeId>>, node: Option<NodeId>): (r: map<NodeId, seq<NodeId>>)
    ensures forall n :: NextOf(r, n) == if node == Some(n) then [] else NextOf(next, n)
  {
    if node.Some? then next[node.value := []] else next
  }

  predicate OwnedBy(n: NodeId, t: Tile)
  {
    n.id == t.id && n.x == t.x && n.y == t.y && n.port in t.ports
  }

  /** `tile.disconnectAll()`: every node of the tile loses its edges. */
  function DisconnectTile(next: map<NodeId, seq<NodeId>>, t: Tile): (r: map<NodeId, seq<NodeId>>)
    ensures forall n :: NextOf(r, n) == if OwnedBy(n, t) then [] else NextOf(next, n)
  {
    map n | n in next :: if OwnedBy(n, t) then [] else next[n]
  }

  function Instantiate(t: Tile, ports: seq<Port>): (r: seq<NodeId>)
    ensures |r| == |ports|
    ensures forall i :: 0 <= i < |ports| ==> r[i] == NodeOf(t, ports[i])
  {
    seq(|ports|, i requires 0 <= i < |ports| => NodeOf(t, ports[i]))
  }

  function Wiring(next: map<NodeId, seq<NodeId>>, t: Tile, m: Template, n: NodeId): seq<NodeId>
  {
    if OwnedBy(n, t) then (if n.port in m.wiring then Instantiate(t, m.wiring[n.port]) else []) else NextOf(next, n)
  }

  /** The fresh nodes of a newly created tile, wired inside the tile as the template says. */
  function Wire(next: map<NodeId, seq<NodeId>>, t: Tile, m: Template): (r: map<NodeId, seq<NodeId>>)
    requires t.ports == m.ports
    ensures forall n :: NextOf(r, n) == Wiring(next, t, m, n)
  {
    var wired := (map p | p in m.ports :: NodeOf(t, p) := if p in m.wiring then Instantiate(t, m.wiring[p]) else []);
    next + wired
  }

  /** Both connections `updateTile` makes between a new tile and its neighbour across side `s`. */
  function Link(next: map<NodeId, seq<NodeId>>, t: Option<Tile>, neighbour: Option<Tile>, s: Side): (r: map<NodeId, seq<NodeId>>)
    ensures forall n :: NextOf(r, n) == NextOf(next, n) + LinkAdds(t, neighbour, s, n)
  {
    if neighbour.Some? then
      Connect(Connect(next, OutOf(t, s), InOf(neighbour, Opposite(s))), OutOf(neighbour, Opposite(s)), InOf(t, s))
    else next
  }

  /** The edges `Link` appends to node `n`. */
  function LinkAdds(t: Option<Tile>, neighbour: Option<Tile>, s: Side, n: NodeId): seq<NodeId>
  {
    (if OutOf(t, s) == Some(n) && InOf(neighbour, Opposite(s)).Some? then [InOf(neighbour, Opposite(s)).value] else [])
    + (if OutOf(neighbour, Opposite(s)) == Some(n) && InOf(t, s).Some? then [InOf(t, s).value] else [])
  }

  // ---------------------------------------------------------------------------
  // updateTile
  // ---------------------------------------------------------------------------

  /**
   * A road that carries both a rotation and a (non-empty, so truthy) style. The rotation is taken to be an object, as
   * `updateTile` reads its `y`, so any present rotation is truthy.
   */
  predicate Buildable(road: Option<Road>)
  {
    road.Some? && road.value.rotation.Some? && road.value.style.Some? && road.value.style.value != ""
  }

  function Neighbour(g: Graph, x: int, y: int, s: Side): Option<Tile>
    requires Shaped(g)
  {
    var (x', y') := Across(x, y, s);
    GetTile(g, x', y')
  }

  /** The removal branch of `updateTile`: disconnect the tile and the out nodes facing it, then clear the slot. */
  function Remove(g: Graph, x: int, y: int): (r: Graph)
    requires Shaped(g) && InGrid(g.size, x, y) && GetTile(g, x, y).Some?
    ensures Shaped(r) && r.size == g.size && r.created == g.created
    ensures GetTile(r, x, y) == None
    ensures forall x', y' :: (x', y') != (x, y) ==> GetTile(r, x', y') == GetTile(g, x', y')
  {
    var t := GetTile(g, x, y).value;
    var n0 := DisconnectTile(g.next, t);
    var n1 := Disconnect(n0, OutOf(Neighbour(g, x, y, Left), Right));
    var n2 := Disconnect(n1, OutOf(Neighbour(g, x, y, Right), Left));
    var n3 := Disconnect(n2, OutOf(Neighbour(g, x, y, Top), Bottom));
    var n4 := Disconnect(n3, OutOf(Neighbour(g, x, y, Bottom), Top));
    SetSlot(g.(next := n4), x, y, None)
  }

  /** Removing the tile at (x, y) empties the edges of exactly the cut nodes and leaves every other node's edges alone. */
  lemma RemoveNext(g: Graph, x: int, y: int, n: NodeId)
    requires Shaped(g) && InGrid(g.size, x, y) && GetTile(g, x, y).Some?
    ensures Next(Remove(g, x, y), n) == if Cut(g, x, y, n) then [] else Next(g, n)
  {
  }

  /** The nodes whose edges removing the tile at (x, y) clears: its own, and the out node of each neighbour facing it. */
  predicate Cut(g: Graph, x: int, y: int, n: NodeId)
    requires Shaped(g)
  {
    || (GetTile(g, x, y).Some? && OwnedBy(n, GetTile(g, x, y).value))
    || OutOf(Neighbour(g, x, y, Left), Right) == Some(n)
    || OutOf(Neighbour(g, x, y, Right), Left) == Some(n)
    || OutOf(Neighbour(g, x, y, Top), Bottom) == Some(n)
    || OutOf(Neighbour(g, x, y, Bottom), Top) == Some(n)
  }

  /** The placement branch of `updateTile`: create the tile, link it with each present neighbour both ways, store it. */
  function Place(g: Graph, x: int, y: int, made: Option<Template>): (r: Graph)
    requires Shaped(g) && InGrid(g.size, x, y)
    requires made.Some? ==> ValidTemplate(made.value)
    ensures Shaped(r) && r.size == g.size
    ensures GetTile(r, x, y) == NewTile(g, x, y, made)
    ensures forall x', y' :: (x', y') != (x, y) ==> GetTile(r, x', y') == GetTile(g, x', y')
    ensures r.created == if made.Some? then g.created + 1 else g.created
  {
    var t := NewTile(g, x, y, made);
    var n0 := if made.Some? then Wire(g.next, t.value, made.value) else g.next;
    var n1 := Link(n0, t, Neighbour(g, x, y, Left), Left);
    var n2 := Link(n1, t, Neighbour(g, x, y, Right), Right);
    var n3 := Link(n2, t, Neighbour(g, x, y, Top), Top);
    var n4 := Link(n3, t, Neighbour(g, x, y, Bottom), Bottom);
    SetSlot(g.(next := n4, created := if made.Some? then g.created + 1 else g.created), x, y, t)
  }

  /** The edges of node `n` once a tile made from `made` is placed at (x, y): wiring first, then the links, side by side. */
  function PlacedNext(g: Graph, x: int, y: int, made: Option<Template>, n: NodeId): seq<NodeId>
    requires Shaped(g)
  {
    var t := NewTile(g, x, y, made);
    (if made.Some? then Wiring(g.next, t.value, made.value, n) else Next(g, n))
    + LinkAdds(t, Neighbour(g, x, y, Left), Left, n)
    + LinkAdds(t, Neighbour(g, x, y, Right), Right, n)
    + LinkAdds(t, Neighbour(g, x, y, Top), Top, n)
    + LinkAdds(t, Neighbour(g, x, y, Bottom), Bottom, n)
  }

  lemma PlaceNext(g: Graph, x: int, y: int, made: Option<Template>, n: NodeId)
    requires Shaped(g) && InGrid(g.size, x, y)
    requires made.Some? ==> ValidTemplate(made.value)
    ensures Next(Place(g, x, y, made), n) == PlacedNext(g, x, y, made, n)
  {
  }

  /** The tile `VehicleGraphTile.create` yields at (x, y): the next instance number, or none. */
  function NewTile(g: Graph, x: int, y: int, made: Option<Template>): Option<Tile>
  {
    if made.Some? then Some(Tile(g.created, x, y, made.value.ports)) else None
  }

  /**
   * `updateTile(x, y, road)` as the program writes it. `made` is what `VehicleGraphTile.create` returns for the
   * road's coordinates, rotation and style; it is only used when the road is buildable.
   */
  function UpdateTile(g: Graph, x: int, y: int, road: Option<Road>, made: Option<Template>): (r: Graph)
    requires Shaped(g) && InGrid(g.size, x, y)
    requires made.Some? ==> ValidTemplate(made.value)
    ensures Shaped(r) && r.size == g.size
    ensures GetTile(r, x, y) == if Buildable(road) then NewTile(g, x, y, made) else None
    ensures forall x', y' :: (x', y') != (x, y) ==> GetTile(r, x', y') == GetTile(g, x', y')
  {
    if road.None? && GetTile(g, x, y).Some? then Remove(g, x, y)
    else if Buildable(road) then Place(g, x, y, made)
    else SetSlot(g, x, y, None)
  }

  /**
   * `updateTile` with the tile it replaces disconnected first: whenever the slot is occupied its tile is removed as
   * in the removal branch, and a buildable road is then placed on the empty slot.
   */
  function UpdateTileDisconnecting(g: Graph, x: int, y: int, road: Option<Road>, made: Option<Template>): (r: Graph)
    requires Shaped(g) && InGrid(g.size, x, y)
    requires made.Some? ==> ValidTemplate(made.value)
    ensures Shaped(r) && r.size == g.size
    ensures GetTile(r, x, y) == if Buildable(road) then NewTile(g, x, y, made) else None
    ensures forall x', y' :: (x', y') != (x, y) ==> GetTile(r, x', y') == GetTile(g, x', y')
  {
    var cleared := if GetTile(g, x, y).Some? then Remove(g, x, y) else g;
    if Buildable(road) then Place(cleared, x, y, made) else cleared
  }

  // ---------------------------------------------------------------------------
  // Properties of updateTile
  // ---------------------------------------------------------------------------

  /** `updateTile(x, y, null)` on an empty slot changes nothing. */
  lemma RemoveEmptyIsNoOp(g: Graph, x: int, y: int, made: Option<Template>)
    requires Shaped(g) && InGrid(g.size, x, y) && GetTile(g, x, y).None?
    requires made.Some? ==> ValidTemplate(made.value)
    ensures UpdateTile(g, x, y, None, made) == g
  {
    assert g.tiles[x][y := None] == g.tiles[x];
    assert g.tiles[x := g.tiles[x]] == g.tiles;
  }

  /**
   * Placing a buildable road links the new tile with each present neighbour in both directions: the new tile's out
   * node on side `s` leads to the neighbour's in node on the opposite side, and the neighbour's out node there leads
   * back to the new tile's in node on side `s`.
   */
  lemma PlaceConnectsBothWays(g: Graph, x: int, y: int, road: Option<Road>, made: Option<Template>, s: Side)
    requires Shaped(g) && InGrid(g.size, x, y)
    requires made.Some? ==> ValidTemplate(made.value)
    requires Buildable(road) && made.Some?
    ensures var r := UpdateTile(g, x, y, road, made);
      var t := GetTile(r, x, y);
      var nb := Neighbour(g, x, y, s);
      && (OutOf(t, s).Some? && InOf(nb, Opposite(s)).Some? ==> InOf(nb, Opposite(s)).value in Next(r, OutOf(t, s).value))
      && (OutOf(nb, Opposite(s)).Some? && InOf(t, s).Some? ==> InOf(t, s).value in Next(r, OutOf(nb, Opposite(s)).value))
  {
    UpdateTilePlaces(g, x, y, road, made);
    PlaceLinksNeighbour(g, x, y, made, s);
  }

  lemma UpdateTilePlaces(g: Graph, x: int, y: int, road: Option<Road>, made: Option<Template>)
    requires Shaped(g) && InGrid(g.size, x, y)
    requires made.Some? ==> ValidTemplate(made.value)
    requires Buildable(road)
    ensures UpdateTile(g, x, y, road, made) == Place(g, x, y, made)
  {
  }

  lemma UpdateTileRemoves(g: Graph, x: int, y: int, made: Option<Template>)
    requires Shaped(g) && InGrid(g.size, x, y) && GetTile(g, x, y).Some?
    requires made.Some? ==> ValidTemplate(made.value)
    ensures UpdateTile(g, x, y, None, made) == Remove(g, x, y)
  {
  }

  lemma PlaceLinksNeighbour(g: Graph, x: int, y: int, made: Option<Template>, s: Side)
    requires Shaped(g) && InGrid(g.size, x, y)
    requires made.Some? ==> ValidTemplate(made.value)
    ensures var r := Place(g, x, y, made);
      var t := GetTile(r, x, y);
      var nb := Neighbour(g, x, y, s);
      && (OutOf(t, s).Some? && InOf(nb, Opposite(s)).Some? ==> InOf(nb, Opposite(s)).value in Next(r, OutOf(t, s).value))
      && (OutOf(nb, Opposite(s)).Some? && InOf(t, s).Some? ==> InOf(t, s).value in Next(r, OutOf(nb, Opposite(s)).value))
  {
    var t := NewTile(g, x, y, made);
    var nb := Neighbour(g, x, y, s);
    if OutOf(t, s).Some? && InOf(nb, Opposite(s)).Some? {
      PlaceLinksOutward(g, x, y, made, s, t, nb);
    }
    if OutOf(nb, Opposite(s)).Some? && InOf(t, s).Some? {
      PlaceLinksInward(g, x, y, made, s, t, nb);
    }
  }

  lemma PlaceLinksOutward(g: Graph, x: int, y: int, made: Option<Template>, s: Side, t: Option<Tile>, nb: Option<Tile>)
    requires Shaped(g) && InGrid(g.size, x, y)
    requires made.Some? ==> ValidTemplate(made.value)
    requires t == NewTile(g, x, y, made) && nb == Neighbour(g, x, y, s)
    requires OutOf(t, s).Some? && InOf(nb, Opposite(s)).Some?
    ensures InOf(nb, Opposite(s)).value in Next(Place(g, x, y, made), OutOf(t, s).value)
  {
    LinkedOnPlacement(g, x, y, made, s, OutOf(t, s).value, InOf(nb, Opposite(s)).value);
  }

  lemma PlaceLinksInward(g: Graph, x: int, y: int, made: Option<Template>, s: Side, t: Option<Tile>, nb: Option<Tile>)
    requires Shaped(g) && InGrid(g.size, x, y)
    requires made.Some? ==> ValidTemplate(made.value)
    requires t == NewTile(g, x, y, made) && nb == Neighbour(g, x, y, s)
    requires OutOf(nb, Opposite(s)).Some? && InOf(t, s).Some?
    ensures InOf(t, s).value in Next(Place(g, x, y, made), OutOf(nb, Opposite(s)).value)
  {
    LinkedOnPlacement(g, x, y, made, s, OutOf(nb, Opposite(s)).value, InOf(t, s).value);
  }

  lemma LinkedOnPlacement(g: Graph, x: int, y: int, made: Option<Template>, s: Side, n: NodeId, m: NodeId)
    requires Shaped(g) && InGrid(g.size, x, y)
    requires made.Some? ==> ValidTemplate(made.value)
    requires m in LinkAdds(NewTile(g, x, y, made), Neighbour(g, x, y, s), s, n)
    ensures m in Next(Place(g, x, y, made), n)
  {
    LinkAddsPlaced(g, x, y, made, s, n, m);
    PlaceNext(g, x, y, made, n);
  }

  /** A node facing one outside (x, y), from outside (x, y), is not among the nodes removing (x, y) clears. */
  lemma NotCut(g: Graph, x: int, y: int, a: NodeId, b: NodeId)
    requires Shaped(g) && Placed(g)
    requires Facing(a, b) && (a.x, a.y) != (x, y) && (b.x, b.y) != (x, y)
    ensures !Cut(g, x, y, a)
  {
    forall s: Side
      ensures var (x', y') := Across(x, y, s); Across(x', y', Opposite(s)) == (x, y)
    {
      AcrossBack(x, y, s);
    }
  }

  /** A live node that removing (x, y) leaves its edges does not face into (x, y). */
  lemma UncutNotInto(g: Graph, x: int, y: int, n: NodeId, m: NodeId)
    requires Shaped(g) && Placed(g)
    requires Live(g, n) && Facing(n, m) && !Cut(g, x, y, n)
    ensures (m.x, m.y) != (x, y)
  {
    AcrossBack(n.x, n.y, n.port.side);
    assert Opposite(Opposite(n.port.side)) == n.port.side;
    assert Neighbour(g, m.x, m.y, Opposite(n.port.side)) == GetTile(g, n.x, n.y);
  }

  /** Liveness once the tile at (x, y) is removed: the old live nodes elsewhere. */
  lemma RemoveLive(g: Graph, x: int, y: int, n: NodeId)
    requires Shaped(g) && InGrid(g.size, x, y) && GetTile(g, x, y).Some?
    ensures Live(Remove(g, x, y), n) <==> Live(g, n) && (n.x, n.y) != (x, y)
  {
  }

  /** After a removal a live node leads only to live nodes of its own tile or facing it. */
  lemma RemoveSound(g: Graph, x: int, y: int, n: NodeId, m: NodeId)
    requires Inv(g) && InGrid(g.size, x, y) && GetTile(g, x, y).Some?
    requires Live(Remove(g, x, y), n) && m in Next(Remove(g, x, y), n)
    ensures Live(Remove(g, x, y), m) && (SameTile(n, m) || Facing(n, m))
  {
    RemoveLive(g, x, y, n);
    RemoveLive(g, x, y, m);
    RemoveNext(g, x, y, n);
    assert !Cut(g, x, y, n) && m in Next(g, n);
    assert Live(g, m) && (SameTile(n, m) || Facing(n, m));
    if Facing(n, m) {
      UncutNotInto(g, x, y, n, m);
    }
  }

  /** After a removal every pair of facing live nodes is still linked. */
  lemma RemoveLinked(g: Graph, x: int, y: int, a: NodeId, b: NodeId)
    requires Inv(g) && InGrid(g.size, x, y) && GetTile(g, x, y).Some?
    requires Live(Remove(g, x, y), a) && Live(Remove(g, x, y), b) && Facing(a, b)
    ensures b in Next(Remove(g, x, y), a)
  {
    RemoveLive(g, x, y, a);
    RemoveLive(g, x, y, b);
    RemoveNext(g, x, y, a);
    NotCut(g, x, y, a, b);
    assert b in Next(g, a);
  }

  /**
   * Removing the road at an occupied slot keeps the graph invariant; in particular no live node is left with an edge
   * into the removed tile.
   */
  lemma RemovePreservesInv(g: Graph, x: int, y: int)
    requires Inv(g) && InGrid(g.size, x, y) && GetTile(g, x, y).Some?
    ensures Inv(Remove(g, x, y))
    ensures forall n, m {:trigger m in Next(Remove(g, x, y), n)} :: Live(Remove(g, x, y), n) && m in Next(Remove(g, x, y), n) ==>
      !OwnedBy(m, GetTile(g, x, y).value)
  {
    RemovePlaced(g, x, y);
    var r := Remove(g, x, y);
    assert EdgesSound(r) by {
      forall n, m {:trigger m in Next(r, n)} | Live(r, n) && m in Next(r, n)
        ensures Live(r, m) && (SameTile(n, m) || Facing(n, m))
      {
        RemoveSound(g, x, y, n, m);
      }
    }
    assert Linked(r) by {
      forall a, b {:trigger Facing(a, b)} | Live(r, a) && Live(r, b) && Facing(a, b)
        ensures b in Next(r, a)
      {
        RemoveLinked(g, x, y, a, b);
      }
    }
    forall n, m {:trigger m in Next(r, n)} | Live(r, n) && m in Next(r, n)
      ensures !OwnedBy(m, GetTile(g, x, y).value)
    {
      RemoveLive(g, x, y, m);
    }
  }

  lemma RemovePlaced(g: Graph, x: int, y: int)
    requires Shaped(g) && Placed(g) && InGrid(g.size, x, y) && GetTile(g, x, y).Some?
    ensures Placed(Remove(g, x, y))
  {
    var r := Remove(g, x, y);
    forall x', y' | GetTile(r, x', y').Some?
      ensures GetTile(r, x', y').value.x == x' && GetTile(r, x', y').value.y == y'
      ensures GetTile(r, x', y').value.id < r.created
    {
      assert GetTile(r, x', y') == GetTile(g, x', y');
    }
  }

  /** Liveness once a tile is placed on the empty slot (x, y): the new tile's nodes, and the old live nodes. */
  lemma PlaceLive(g: Graph, x: int, y: int, made: Option<Template>, n: NodeId)
    requires Shaped(g) && InGrid(g.size, x, y) && GetTile(g, x, y).None?
    requires made.Some? ==> ValidTemplate(made.value)
    ensures Live(Place(g, x, y, made), n) <==>
      if (n.x, n.y) == (x, y) then NewTile(g, x, y, made).Some? && OwnedBy(n, NewTile(g, x, y, made).value)
      else Live(g, n)
  {
  }

  /** An edge one link appends joins two facing nodes, one on the new tile and one on its neighbour. */
  lemma LinkAddsFacing(g: Graph, x: int, y: int, made: Option<Template>, s: Side, n: NodeId, m: NodeId)
    requires Shaped(g) && Placed(g) && InGrid(g.size, x, y)
    requires m in LinkAdds(NewTile(g, x, y, made), Neighbour(g, x, y, s), s, n)
    ensures Facing(n, m)
    ensures (n.x, n.y) == (x, y) ==> Live(g, m) && (m.x, m.y) == Across(x, y, s)
    ensures (n.x, n.y) != (x, y) ==> NewTile(g, x, y, made).Some? && OwnedBy(m, NewTile(g, x, y, made).value)
  {
    AcrossBack(x, y, s);
    assert Opposite(Opposite(s)) == s;
  }

  /** The wiring or old edges of a node stay sound once a tile is placed on the empty slot. */
  lemma PlaceBaseSound(g: Graph, x: int, y: int, made: Option<Template>, n: NodeId, m: NodeId)
    requires Inv(g) && InGrid(g.size, x, y) && GetTile(g, x, y).None?
    requires made.Some? ==> ValidTemplate(made.value)
    requires Live(Place(g, x, y, made), n)
    requires m in (if made.Some? then Wiring(g.next, NewTile(g, x, y, made).value, made.value, n) else Next(g, n))
    ensures Live(Place(g, x, y, made), m) && (SameTile(n, m) || Facing(n, m))
  {
    var t := NewTile(g, x, y, made);
    PlaceLive(g, x, y, made, n);
    PlaceLive(g, x, y, made, m);
    if (n.x, n.y) == (x, y) {
      var ports := made.value.wiring[n.port];
      var i :| 0 <= i < |ports| && m == Instantiate(t.value, ports)[i];
      assert m == NodeOf(t.value, ports[i]);
    } else {
      assert m in Next(g, n) && Live(g, n);
      assert Live(g, m) && (SameTile(n, m) || Facing(n, m));
      assert (m.x, m.y) != (x, y);
    }
  }

  /** The edges the links append stay sound once a tile is placed on the empty slot. */
  lemma PlaceLinkSound(g: Graph, x: int, y: int, made: Option<Template>, s: Side, n: NodeId, m: NodeId)
    requires Inv(g) && InGrid(g.size, x, y) && GetTile(g, x, y).None?
    requires made.Some? ==> ValidTemplate(made.value)
    requires m in LinkAdds(NewTile(g, x, y, made), Neighbour(g, x, y, s), s, n)
    ensures Live(Place(g, x, y, made), m) && Facing(n, m)
  {
    PlaceLive(g, x, y, made, m);
    LinkAddsFacing(g, x, y, made, s, n, m);
    AcrossBack(x, y, s);
  }

  /** Placing on an empty slot keeps every edge sound. */
  lemma PlaceSound(g: Graph, x: int, y: int, made: Option<Template>, n: NodeId, m: NodeId)
    requires Inv(g) && InGrid(g.size, x, y) && GetTile(g, x, y).None?
    requires made.Some? ==> ValidTemplate(made.value)
    requires Live(Place(g, x, y, made), n) && m in Next(Place(g, x, y, made), n)
    ensures Live(Place(g, x, y, made), m) && (SameTile(n, m) || Facing(n, m))
  {
    var t := NewTile(g, x, y, made);
    var base := if made.Some? then Wiring(g.next, t.value, made.value, n) else Next(g, n);
    var l := LinkAdds(t, Neighbour(g, x, y, Left), Left, n);
    var r := LinkAdds(t, Neighbour(g, x, y, Right), Right, n);
    var u := LinkAdds(t, Neighbour(g, x, y, Top), Top, n);
    var d := LinkAdds(t, Neighbour(g, x, y, Bottom), Bottom, n);
    PlaceNext(g, x, y, made, n);
    assert m in base + l + r + u + d;
    if m in base {
      PlaceBaseSound(g, x, y, made, n, m);
    } else if m in l {
      PlaceLinkSound(g, x, y, made, Left, n, m);
    } else if m in r {
      PlaceLinkSound(g, x, y, made, Right, n, m);
    } else if m in u {
      PlaceLinkSound(g, x, y, made, Top, n, m);
    } else {
      PlaceLinkSound(g, x, y, made, Bottom, n, m);
    }
  }

  /** Whatever one link appends to a node is among the node's edges after placement. */
  lemma LinkAddsPlaced(g: Graph, x: int, y: int, made: Option<Template>, s: Side, n: NodeId, m: NodeId)
    requires Shaped(g)
    requires m in LinkAdds(NewTile(g, x, y, made), Neighbour(g, x, y, s), s, n)
    ensures m in PlacedNext(g, x, y, made, n)
  {
    var t := NewTile(g, x, y, made);
    var base := if made.Some? then Wiring(g.next, t.value, made.value, n) else Next(g, n);
    var l := LinkAdds(t, Neighbour(g, x, y, Left), Left, n);
    var r := LinkAdds(t, Neighbour(g, x, y, Right), Right, n);
    var u := LinkAdds(t, Neighbour(g, x, y, Top), Top, n);
    var d := LinkAdds(t, Neighbour(g, x, y, Bottom), Bottom, n);
    assert PlacedNext(g, x, y, made, n) == base + l + r + u + d;
    match s
    case Left => assert m in l;
    case Right => assert m in r;
    case Top => assert m in u;
    case Bottom => assert m in d;
  }

  /** A new tile's out node leads to the facing in node of its neighbour. */
  lemma PlaceLinkedOutward(g: Graph, x: int, y: int, made: Option<Template>, a: NodeId, b: NodeId)
    requires Inv(g) && InGrid(g.size, x, y) && GetTile(g, x, y).None?
    requires NewTile(g, x, y, made).Some? && OwnedBy(a, NewTile(g, x, y, made).value)
    requires Live(g, b) && Facing(a, b)
    ensures b in PlacedNext(g, x, y, made, a)
  {
    var t := NewTile(g, x, y, made);
    var s := a.port.side;
    assert OutOf(t, s) == Some(a);
    assert InOf(Neighbour(g, x, y, s), Opposite(s)) == Some(b);
    LinkAddsPlaced(g, x, y, made, s, a, b);
  }

  /** A neighbour's out node facing the new tile leads to the new tile's in node. */
  lemma PlaceLinkedInward(g: Graph, x: int, y: int, made: Option<Template>, a: NodeId, b: NodeId)
    requires Inv(g) && InGrid(g.size, x, y) && GetTile(g, x, y).None?
    requires NewTile(g, x, y, made).Some? && OwnedBy(b, NewTile(g, x, y, made).value)
    requires Live(g, a) && Facing(a, b)
    ensures b in PlacedNext(g, x, y, made, a)
  {
    var t := NewTile(g, x, y, made);
    var s := b.port.side;
    AcrossBack(a.x, a.y, a.port.side);
    assert Opposite(s) == a.port.side;
    assert Neighbour(g, x, y, s) == GetTile(g, a.x, a.y);
    assert OutOf(Neighbour(g, x, y, s), Opposite(s)) == Some(a);
    assert InOf(t, s) == Some(b);
    LinkAddsPlaced(g, x, y, made, s, a, b);
  }

  /** An edge between two old live nodes survives placement. */
  lemma PlaceKeepsOld(g: Graph, x: int, y: int, made: Option<Template>, a: NodeId, b: NodeId)
    requires Shaped(g) && (a.x, a.y) != (x, y)
    requires b in Next(g, a)
    ensures b in PlacedNext(g, x, y, made, a)
  {
    assert PlacedNext(g, x, y, made, a)[..|Next(g, a)|] == Next(g, a);
  }

  /** Placement at (x, y) only adds edges to the nodes of other coordinates. */
  lemma PlaceKeepsEdges(g: Graph, x: int, y: int, made: Option<Template>, a: NodeId, b: NodeId)
    requires Shaped(g) && InGrid(g.size, x, y) && (a.x, a.y) != (x, y)
    requires made.Some? ==> ValidTemplate(made.value)
    requires b in Next(g, a)
    ensures b in Next(Place(g, x, y, made), a)
  {
    PlaceKeepsOld(g, x, y, made, a, b);
    PlaceNext(g, x, y, made, a);
  }

  /**
   * A tile placed at (x, y) replaces whatever was there: the old tile's nodes are no longer live, while live nodes at
   * other coordinates stay live.
   */
  lemma PlaceRetires(g: Graph, x: int, y: int, made: Option<Template>, a: NodeId, b: NodeId)
    requires Shaped(g) && Placed(g) && InGrid(g.size, x, y)
    requires made.Some? ==> ValidTemplate(made.value)
    requires Live(g, a) && (a.x, a.y) != (x, y)
    requires Live(g, b) && (b.x, b.y) == (x, y)
    ensures Live(Place(g, x, y, made), a) && !Live(Place(g, x, y, made), b)
  {
    assert GetTile(g, x, y).value.id < g.created;
  }

  /** Placing on an empty slot links every pair of facing live nodes. */
  lemma PlaceLinked(g: Graph, x: int, y: int, made: Option<Template>, a: NodeId, b: NodeId)
    requires Inv(g) && InGrid(g.size, x, y) && GetTile(g, x, y).None?
    requires made.Some? ==> ValidTemplate(made.value)
    requires Live(Place(g, x, y, made), a) && Live(Place(g, x, y, made), b) && Facing(a, b)
    ensures b in Next(Place(g, x, y, made), a)
  {
    PlaceLive(g, x, y, made, a);
    PlaceLive(g, x, y, made, b);
    PlaceNext(g, x, y, made, a);
    AcrossBack(a.x, a.y, a.port.side);
    if (a.x, a.y) == (x, y) {
      PlaceLinkedOutward(g, x, y, made, a, b);
    } else if (b.x, b.y) == (x, y) {
      PlaceLinkedInward(g, x, y, made, a, b);
    } else {
      PlaceKeepsOld(g, x, y, made, a, b);
    }
  }

  lemma PlacePlaced(g: Graph, x: int, y: int, made: Option<Template>)
    requires Shaped(g) && Placed(g) && InGrid(g.size, x, y)
    requires made.Some? ==> ValidTemplate(made.value)
    ensures Placed(Place(g, x, y, made))
  {
    var r := Place(g, x, y, made);
    forall x', y' | GetTile(r, x', y').Some?
      ensures GetTile(r, x', y').value.x == x' && GetTile(r, x', y').value.y == y'
      ensures GetTile(r, x', y').value.id < r.created
    {
      if (x', y') != (x, y) {
        assert GetTile(r, x', y') == GetTile(g, x', y');
      }
    }
  }

  /** Placing a tile on an empty slot keeps the graph invariant. */
  lemma PlacePreservesInv(g: Graph, x: int, y: int, made: Option<Template>)
    requires Inv(g) && InGrid(g.size, x, y) && GetTile(g, x, y).None?
    requires made.Some? ==> ValidTemplate(made.value)
    ensures Inv(Place(g, x, y, made))
  {
    PlacePlaced(g, x, y, made);
    var r := Place(g, x, y, made);
    assert EdgesSound(r) by {
      forall n, m {:trigger m in Next(r, n)} | Live(r, n) && m in Next(r, n)
        ensures Live(r, m) && (SameTile(n, m) || Facing(n, m))
      {
        PlaceSound(g, x, y, made, n, m);
      }
    }
    assert Linked(r) by {
      forall a, b {:trigger Facing(a, b)} | Live(r, a) && Live(r, b) && Facing(a, b)
        ensures b in Next(r, a)
      {
        PlaceLinked(g, x, y, made, a, b);
      }
    }
  }

  /** `updateTile` that disconnects the tile it replaces keeps the invariant on every input. */
  lemma UpdateTileDisconnectingPreservesInv(g: Graph, x: int, y: int, road: Option<Road>, made: Option<Template>)
    requires Inv(g) && InGrid(g.size, x, y)
    requires made.Some? ==> ValidTemplate(made.value)
    ensures Inv(UpdateTileDisconnecting(g, x, y, road, made))
  {
    var cleared := if GetTile(g, x, y).Some? then Remove(g, x, y) else g;
    if GetTile(g, x, y).Some? {
      RemovePreservesInv(g, x, y);
    }
    if Buildable(road) {
      PlacePreservesInv(cleared, x, y, made);
    }
  }

  /** `updateTile` as written agrees with the disconnecting version when the slot is empty or the road is removed. */
  lemma UpdateTileAgrees(g: Graph, x: int, y: int, road: Option<Road>, made: Option<Template>)
    requires Shaped(g) && InGrid(g.size, x, y)
    requires made.Some? ==> ValidTemplate(made.value)
    requires GetTile(g, x, y).None? || road.None?
    ensures UpdateTile(g, x, y, road, made) == UpdateTileDisconnecting(g, x, y, road, made)
  {
    if GetTile(g, x, y).None? && !Buildable(road) {
      RemoveEmptyIsNoOp(g, x, y, made);
    }
  }
}

=== FILE: wrappers.dfy ===
/** Optional values, standing for the `T | null` and `x?.y` shapes of the modelled program. */
module Wrappers {

  datatype Option<+T> = None | Some(value: T)
}
